=== FILE: README.md ===
# Pod-Console-Tools: the upload and upgrade commands, modelled in Dafny

Pod-Console-Tools is a PHP console tool for CocoaPods library authors. Its
`pod:upload` command prepares and publishes a new release of a pod:

1. It requires the `--repo` option, which names the private pod repository.
2. It commits whatever is uncommitted, asking first unless `--force` is given.
3. It finds the podspec in the working path and reads its version.
4. It bumps the last number of the version, asking for confirmation or a replacement unless forced.
5. It writes the new version into the podspec.
6. It commits, tags and, when forced or confirmed, pushes the result.
7. Finally it runs `pod repo push`.

`pod:upgrade` is an unfinished sibling. It does the commit and locates the podspec, and stops there.

The model has seven modules:

- `Strings`: the PHP string primitives the commands rely on.
  - `implode`, `preg_grep` with a line predicate, and `str_replace`.
  - `strrpos`, and `file()` with its line splitting.
  - PHP's `empty()`.
- `Version`: `checkVersionNumber` and `incrementedVersion`.
- `Podspec`:
  - `getPodspecVersionFromPath`, as a reading of the podspec's lines.
  - `replaceVersionInPath`, both as written and as evidently intended.
- `Locator`: `getPodSpecPathInDirectory` of both commands. The upload command takes the first match; the upgrade command takes the last.
- `Workflow`: what the commands share.
  - The external commands, the questions, the trace of events and the environment.
  - The environment supplies every exit code and every answer, indexed by the number of events so far.
- `UploadCommand`: every step of `pod:upload` as a function from state to a step that goes on or throws, with lemmas about single steps and about the whole run.
- `UpgradeCommand`: the same for `pod:upgrade`.

The processes, the user and `glob` are parameters of the model. Podspec files are a map from path to content.

A command fails when its exit code is positive, as the source's `$return > 0` checks. The tree counts as dirty when the diff's exit code is non-zero.

Two points follow the code rather than the tool's own description:

- The upload command runs `git diff` before it looks for a podspec. It may even commit first. Only then can it throw for a missing podspec.
- A podspec without a readable version is not rejected when it is read. Its version flows on as PHP's null, that is "", and bumps to ".1". What the rewrite then does is under "## Left out".

## Model

| member | source | states |
|---|---|---|
| Strings.Grep | src/barteljan/pods/Commands/UploadPodRepoCommand.php:338 | `preg_grep` keeps a line exactly when it satisfies the pattern: every kept line is an input line satisfying it, and every satisfying input line is kept. |
| Strings.GrepAppend | src/barteljan/pods/Commands/UploadPodRepoCommand.php:338 | Grepping two line lists one after the other gives the two results in the same order. |
| Strings.RemoveNewlines | src/barteljan/pods/Commands/UploadPodRepoCommand.php:340 | `str_replace("\n", "", …)` leaves no newline, never lengthens the string and keeps only characters of the input. |
| Strings.StrReplaceAbsent | src/barteljan/pods/Commands/UploadPodRepoCommand.php:370 | `str_replace` leaves a string without an occurrence of the search string unchanged. |
| Strings.StrReplaceSelf | src/barteljan/pods/Commands/UploadPodRepoCommand.php:370 | Replacing a string by itself changes nothing. |
| Strings.StrReplaceSplit | src/barteljan/pods/Commands/UploadPodRepoCommand.php:370 | The replacement of `u + v` is the replacement of `u` followed by that of `v` when no occurrence straddles the cut. |
| Strings.LastIndexOf | src/barteljan/pods/Commands/UploadPodRepoCommand.php:397 | `strrpos` finds a position holding the character, and reports PHP's false only when the character occurs nowhere. |
| Strings.SplitLines | src/barteljan/pods/Commands/UploadPodRepoCommand.php:361 | `file()` cuts the content into lines that join back to the content, every line but the last ending in its newline. |
| Strings.SplitConcat | src/barteljan/pods/Commands/UploadPodRepoCommand.php:361 | Splitting joined well-formed lines gives back the same lines, the inverse of `SplitLines`. |
| Version.HasForeignChar | src/barteljan/pods/Commands/UploadPodRepoCommand.php:326 | The scan for `[^0-9.]` succeeds exactly when the string holds a character other than a digit or a dot. |
| Version.CheckVersionNumber | src/barteljan/pods/Commands/UploadPodRepoCommand.php:319-331 | A version is accepted exactly when it is not PHP-empty (neither "" nor "0") and consists of digits and dots only. |
| Version.CheckVersionNumberExamples | src/barteljan/pods/Commands/UploadPodRepoCommand.php:319-331 | "1.2.3", "..." and "00" are accepted; "1.2.a", "" and "0" are rejected. |
| Version.DigitRunStart | src/barteljan/pods/Commands/UploadPodRepoCommand.php:390-392 | The capture of `([0-9]+)$` starts where the maximal run of digits ending the string starts. |
| Version.TrailingNumber | src/barteljan/pods/Commands/UploadPodRepoCommand.php:390-392 | The captured last number consists of digits only. |
| Version.TrailingNumberIsRun | src/barteljan/pods/Commands/UploadPodRepoCommand.php:390-392 | The capture is the longest run of digits ending the version, or ending it before one final newline, where `$` also matches. |
| Version.NatToString | src/barteljan/pods/Commands/UploadPodRepoCommand.php:393 | An integer prints as a non-empty digit string with no leading zero. |
| Version.NatToStringValue | src/barteljan/pods/Commands/UploadPodRepoCommand.php:393 | Reading a printed number back gives the number, so printing and reading are inverse. |
| Version.HeadBeforeLastDot | src/barteljan/pods/Commands/UploadPodRepoCommand.php:397-398 | Everything before the last dot is a prefix of the version. |
| Version.HeadEndsAtLastDot | src/barteljan/pods/Commands/UploadPodRepoCommand.php:397-398 | The head is empty when the version has no dot (`strrpos` gives false), and otherwise ends right before the last dot. |
| Version.IncrementDotted | src/barteljan/pods/Commands/UploadPodRepoCommand.php:387-404 | For a version `p.d` whose last component `d` is a digit run, the increment is `p` then a dot then `d` plus one. |
| Version.IncrementBumpsLastComponent | src/barteljan/pods/Commands/UploadPodRepoCommand.php:387-404 | The increment keeps everything up to the last dot and makes the last component a digit string whose value is one more. |
| Version.IncrementTrailingDot | src/barteljan/pods/Commands/UploadPodRepoCommand.php:387-404 | A version ending in a dot has an empty last number, read as 0, so `p.` becomes `p.1`. |
| Version.IncrementUndotted | src/barteljan/pods/Commands/UploadPodRepoCommand.php:397-401 | A version without a dot has an empty head, so its increment is a dot followed by the number plus one. |
| Version.IncrementAccepted | src/barteljan/pods/Commands/UploadPodRepoCommand.php:387-404 | The increment of any digits-and-dots string, "" included, passes `checkVersionNumber`. |
| Version.IncrementExamples | src/barteljan/pods/Commands/UploadPodRepoCommand.php:387-404 | "1.2.3" becomes "1.2.4", "0.9" becomes "0.10", "1.09" becomes "1.10", "7" becomes ".8" and "" becomes ".1". |
| Podspec.SkipSpaces | src/barteljan/pods/Commands/UploadPodRepoCommand.php:337 | `(\s)*` consumes exactly the white space that follows, greedily. |
| Podspec.RunEnd | src/barteljan/pods/Commands/UploadPodRepoCommand.php:343 | `[0-9.]+` ends at the first character that is neither a digit nor a dot. |
| Podspec.FirstQuoted | src/barteljan/pods/Commands/UploadPodRepoCommand.php:343-345 | A captured version is a non-empty run of digits and dots. |
| Podspec.FirstQuotedNone | src/barteljan/pods/Commands/UploadPodRepoCommand.php:343-345 | Nothing is captured exactly when no match of `["']([0-9.]+)["']` starts at or after the position. |
| Podspec.FirstQuotedSome | src/barteljan/pods/Commands/UploadPodRepoCommand.php:343-345 | A capture is the run of the leftmost match at or after the position. |
| Podspec.FirstQuotedLeftmost | src/barteljan/pods/Commands/UploadPodRepoCommand.php:343-345 | Wherever the leftmost match stands, its run is the capture returned. |
| Podspec.ExtractVersion | src/barteljan/pods/Commands/UploadPodRepoCommand.php:334-348 | A version read from a podspec is a non-empty run of digits and dots; `None` is PHP's null. |
| Podspec.ExtractIsLeftmost | src/barteljan/pods/Commands/UploadPodRepoCommand.php:334-348 | No version is read exactly when the matching lines, joined and without newlines, hold no quoted run of digits and dots; otherwise the version read is the run of the leftmost one, quoted with `"` or `'`. |
| Podspec.ExtractIgnoresOtherLines | src/barteljan/pods/Commands/UploadPodRepoCommand.php:337-338 | A line that does not match `version(\s)*=(\s)*` has no effect on the version read. |
| Podspec.FirstQuotedFinds | src/barteljan/pods/Commands/UploadPodRepoCommand.php:343-345 | A run of digits and dots between two quotes, each `"` or `'`, with no quote of either kind before it, is the capture. |
| Podspec.ExtractFirstDeclaration | src/barteljan/pods/Commands/UploadPodRepoCommand.php:334-348 | When the first matching line has as its first quote, `"` or `'`, the opening of a quoted run `v` of digits and dots, the version read is `v`, whatever later matching lines hold. |
| Podspec.SwiftVersionExample | src/barteljan/pods/Commands/UploadPodRepoCommand.php:334-348 | `s.version = '1.0'` followed by `s.swift_version = '5.0'`, which matches as well, reads as "1.0". |
| Podspec.NoAssignWithoutV | src/barteljan/pods/Commands/UploadPodRepoCommand.php:337 | A line without the letter v, in either case, cannot match `version(\s)*=(\s)*`. |
| Podspec.ExtractExample | src/barteljan/pods/Commands/UploadPodRepoCommand.php:334-348 | A three-line podspec declaring `s.version = "2.3.1"` reads as "2.3.1". |
| Podspec.NoDeclarationLinesWithoutQuote | src/barteljan/pods/Commands/UploadPodRepoCommand.php:360-361 | Content without a double quote holds no line matching `version(\s)*=(\s)*"<old>"`. |
| Podspec.SeveralNotALine | src/barteljan/pods/Commands/UploadPodRepoCommand.php:361-369 | Two or more declaring lines join into a key with an inner newline, which equals no line, so nothing is rewritten. |
| Podspec.ReplaceSucceedsIffUnique | src/barteljan/pods/Commands/UploadPodRepoCommand.php:351-385 | The rewrite takes effect exactly when one line, and only one, declares the old version; otherwise the exception is raised. |
| Podspec.RewriteLinesAbsent | src/barteljan/pods/Commands/UploadPodRepoCommand.php:365-375 | When no line equals the key, the copy is the original, line for line. |
| Podspec.RewriteLinesAt | src/barteljan/pods/Commands/UploadPodRepoCommand.php:365-375 | When exactly line `k` equals the key, the copy replaces that line by its `str_replace` and keeps all others. |
| Podspec.UniqueDeclaration | src/barteljan/pods/Commands/UploadPodRepoCommand.php:360-361 | With one declaring line, the key is that line and no other line equals it. |
| Podspec.ReplaceAt | src/barteljan/pods/Commands/UploadPodRepoCommand.php:365-380 | The new content is the lines before the declaration, the rewritten declaration, then the lines after it. |
| Podspec.ReplaceRewritesOnlyTheDeclaration | src/barteljan/pods/Commands/UploadPodRepoCommand.php:351-385 | On success the file is unchanged except for the one line declaring the old version, which then declares the new version. |
| Podspec.RewrittenLineDeclaresNew | src/barteljan/pods/Commands/UploadPodRepoCommand.php:370 | `str_replace` of a non-empty digits-and-dots old version on a declaring line yields a line declaring the new version. |
| Podspec.ReplaceSameVersion | src/barteljan/pods/Commands/UploadPodRepoCommand.php:370-380 | Rewriting a version to itself leaves the content as it was. |
| Podspec.AsWrittenAcceptsMissingDeclaration | src/barteljan/pods/Commands/UploadPodRepoCommand.php:365-375 | As written, a newline-terminated podspec without a declaring line is reported as rewritten and left unchanged, where the intended rewrite raises. |
| Podspec.AsWrittenAgreesOtherwise | src/barteljan/pods/Commands/UploadPodRepoCommand.php:365-384 | With a declaring line, or with content not ending in a newline, the loop as written and the intended rewrite agree. |
| Podspec.SingleQuotedExample | src/barteljan/pods/Commands/UploadPodRepoCommand.php:360-384 | `s.version = '1.0'` followed by a newline is reported as rewritten by the loop as written, and rejected by the intended rewrite. |
| Locator.FirstMatch | src/barteljan/pods/Commands/UploadPodRepoCommand.php:406-421 | The upload command takes the first path `glob` lists and fails only on an empty listing. |
| Locator.LastMatchFrom | src/barteljan/pods/Commands/UpgradePodRepoCommand.php:153-155 | The loop without `break` ends holding the last path listed, or what it held before when nothing is listed. |
| Locator.LastMatch | src/barteljan/pods/Commands/UpgradePodRepoCommand.php:149-163 | The upgrade command takes the last path `glob` lists and fails only on an empty listing. |
| Locator.LastIsFirstOfReverse | src/barteljan/pods/Commands/UpgradePodRepoCommand.php:149-163 | The upgrade command finds what the upload command finds in the reversed listing. |
| Locator.LocatorsAgree | src/barteljan/pods/Commands/UpgradePodRepoCommand.php:149-163 | The two commands pick the same podspec exactly when the listing is empty or its first and last entries agree. |
| Workflow.RunCheckedPlain | src/barteljan/pods/Commands/UploadPodRepoCommand.php:192-206 | A checked command appends its own run to the trace and goes on exactly when its exit code is not positive. |
| Workflow.RunBothPlain | src/barteljan/pods/Commands/UploadPodRepoCommand.php:152-178 | Two checked commands run in order, the second only after the first succeeded; only a failing command stops them. |
| UploadCommand.CurrentVersion | src/barteljan/pods/Commands/UploadPodRepoCommand.php:283 | The current version, with PHP's null read as "", consists of digits and dots. |
| UploadCommand.CommitAllFilesPlain | src/barteljan/pods/Commands/UploadPodRepoCommand.php:144-179 | `git add .` and then `git commit` run with the given message when forced, and otherwise with the user's answer; that answer is the only question put. |
| UploadCommand.GitPushPlain | src/barteljan/pods/Commands/UploadPodRepoCommand.php:209-246 | `git push` and then `git push --tags` run always when forced, and otherwise exactly when the user confirmed; only a failing push stops. |
| UploadCommand.CommitTagAndPushPlain | src/barteljan/pods/Commands/UploadPodRepoCommand.php:181-189 | Commit, tag and push happen in that order, each only after the previous one succeeded; the pushes happen exactly as `gitPush` decides. |
| UploadCommand.OfferCommitPlain | src/barteljan/pods/Commands/UploadPodRepoCommand.php:127-135 | Without force `git status` runs first; `checkForUncommitedChanges` answers false exactly when status succeeded and the user declined, and then nothing else happened. |
| UploadCommand.OfferCommitCommands | src/barteljan/pods/Commands/UploadPodRepoCommand.php:127-135 | On yes, the commands are `git status`, `git add .` and a commit with the message the user typed. |
| UploadCommand.CheckPlain | src/barteljan/pods/Commands/UploadPodRepoCommand.php:116-142 | The diff runs first; a clean tree goes on at once; `checkForUncommitedChanges` answers false exactly when there are changes, no force, status succeeded and the user declined. |
| UploadCommand.CheckCommands | src/barteljan/pods/Commands/UploadPodRepoCommand.php:116-142 | With changes, the commands are the diff and the commit, with the default message when forced and with the user's message after `git status` and a yes otherwise. |
| UploadCommand.ChooseVersionPlain | src/barteljan/pods/Commands/UploadPodRepoCommand.php:290-302 | Forced, the proposal is taken unasked; otherwise the version used is one the user confirmed or typed, and only the user aborts. |
| UploadCommand.ChooseVersionAnswers | src/barteljan/pods/Commands/UploadPodRepoCommand.php:290-302 | Unforced, the step stops exactly when the user rejects the proposal and types "exit"; a confirmation goes on with the proposal, and any other typed answer goes on with that answer. |
| UploadCommand.ReplaceVersionInPathSteps | src/barteljan/pods/Commands/UploadPodRepoCommand.php:351-385 | A missing path or a rewrite that does not take effect changes nothing; otherwise exactly one rewrite is recorded and only that file changes. |
| UploadCommand.ApplyVersionSteps | src/barteljan/pods/Commands/UploadPodRepoCommand.php:304-314 | Validation comes before the rewrite and the rewrite before any command; after the rewrite only a failing command stops. |
| UploadCommand.ModifyFoundSteps | src/barteljan/pods/Commands/UploadPodRepoCommand.php:281-316 | A rewrite, if any, is of the podspec found, from the version read from it, to the bumped version when forced and to an approved one otherwise. |
| UploadCommand.ModifySteps | src/barteljan/pods/Commands/UploadPodRepoCommand.php:279-317 | Without a podspec the step throws before doing anything; if a podspec is rewritten, it is the first one listed. |
| UploadCommand.ReleaseSteps | src/barteljan/pods/Commands/UploadPodRepoCommand.php:76-84 | `pod repo push` runs only after a complete rewrite, commit, tag and push. |
| UploadCommand.ModifyErrors | src/barteljan/pods/Commands/UploadPodRepoCommand.php:279-317 | Bumping the version throws only a missing podspec, an abort, an invalid version, a missing path, a failed rewrite or a failed command. |
| UploadCommand.ReleaseErrors | src/barteljan/pods/Commands/UploadPodRepoCommand.php:76-84 | Past the dirty-tree check, neither a missing repository nor declined changes can stop the run. |
| UploadCommand.ExecuteTrace | src/barteljan/pods/Commands/UploadPodRepoCommand.php:43-90 | The whole run fails fast, asks nothing when forced, rewrites at most the first podspec listed, and after a rewrite fails only on a command. |
| UploadCommand.ExecuteFailsFast | src/barteljan/pods/Commands/UploadPodRepoCommand.php:43-90 | A command with a positive exit code ends the run and is the reason it failed. |
| UploadCommand.ExecuteForcedAsksNothing | src/barteljan/pods/Commands/UploadPodRepoCommand.php:43-90 | With `--force` the user is asked nothing. |
| UploadCommand.ExecuteRewritesOnlyThePodspec | src/barteljan/pods/Commands/UploadPodRepoCommand.php:76-80 | The files change only by one recorded, validated rewrite of the first podspec in the working path. |
| UploadCommand.ExecuteFailsCleanly | src/barteljan/pods/Commands/UploadPodRepoCommand.php:290-312 | A run that fails for any reason other than a failing command has changed no file and recorded no rewrite. |
| UploadCommand.ExecuteReleaseOrder | src/barteljan/pods/Commands/UploadPodRepoCommand.php:77-84 | A successful run rewrote the podspec, then added, committed, tagged, pushed exactly when forced or confirmed, and ran `pod repo push` last. |
| UploadCommand.ExecuteNeedsRepo | src/barteljan/pods/Commands/UploadPodRepoCommand.php:51-56 | The run fails on a missing repository exactly when `--repo` is PHP-empty, and then does nothing. |
| UploadCommand.ExecuteDeclined | src/barteljan/pods/Commands/UploadPodRepoCommand.php:69-74 | The run stops on uncommitted changes exactly when there are changes, no force, status succeeded and the user declined; then only those three events happened. |
| UploadCommand.ExecuteCommitsChanges | src/barteljan/pods/Commands/UploadPodRepoCommand.php:116-142 | With changes and force or a yes, the run begins with the diff, then the status unless forced, then `git add .` and the commit with the default or the typed message, or it failed on one of them. |
| UploadCommand.ExecuteStartsWithDiff | src/barteljan/pods/Commands/UploadPodRepoCommand.php:116-120 | With a repository given, the first thing the run does is `git diff --quiet HEAD`. |
| UploadCommand.ConfirmedCleanRelease | src/barteljan/pods/Commands/UploadPodRepoCommand.php:43-90 | An unforced run on a clean tree where every command succeeds and the user confirms the version and the push produces exactly the diff, the confirmation, the rewrite to the bumped version, the message question, add, commit with the typed message, tag, the push confirmation, both pushes and `pod repo push`. |
| UploadCommand.ForcedCleanRelease | src/barteljan/pods/Commands/UploadPodRepoCommand.php:43-90 | A forced run on a clean tree where every command succeeds produces exactly the diff, the rewrite to the bumped version, add, commit, tag, both pushes and `pod repo push`. |
| UpgradeCommand.DiffSteps | src/barteljan/pods/Commands/UpgradePodRepoCommand.php:128-139 | The diff is logged with its exit code and never stops the command. |
| UpgradeCommand.CommitAllFilesSteps | src/barteljan/pods/Commands/UpgradePodRepoCommand.php:109-126 | The commit asks at most for the message and runs the combined add-and-commit with the chosen message, whose exit code is ignored. |
| UpgradeCommand.CheckSteps | src/barteljan/pods/Commands/UpgradePodRepoCommand.php:84-107 | `checkForUncommitedChanges` answers false exactly when there are changes, no force and the user declined; the commit runs on changes with force or a yes, and never otherwise. |
| UpgradeCommand.ExecuteOutcome | src/barteljan/pods/Commands/UpgradePodRepoCommand.php:43-82 | The run succeeds exactly when a repository is named, the changes were committed and a podspec is listed; otherwise it fails on the first of these that does not hold. |
| UpgradeCommand.ExecuteIsHarmless | src/barteljan/pods/Commands/UpgradePodRepoCommand.php:43-82 | The upgrade never changes a file, never fails on a command, and asks nothing when forced. |
| UpgradeCommand.ExecuteCommands | src/barteljan/pods/Commands/UpgradePodRepoCommand.php:43-82 | The upgrade runs the diff and at most the combined commit, with the default message when forced on changes. |

## Left out

- Console output, the headers, the Symfony option plumbing and the exception texts are not modelled. Each exception is an `Error` constructor.
- The `next-version` option (UploadPodRepoCommand.php:28) is declared but never read, so it is not modelled.
- Timeouts are left out. Every process has a 3600-second timeout, and a timeout throws `ProcessTimedOutException`; the model only sees the exit codes the environment supplies.
- The model does not change directories.
  - It uses the working path (`WorkingPath`) and does not model `chdir`.
  - The source restores the old working directory only on success (UploadPodRepoCommand.php:59-64 and :89; UpgradePodRepoCommand.php:57-62 and :81).
- The second locate and read after `pod repo push` (UploadPodRepoCommand.php:86) only feeds the closing message, so it is not modelled.
- `Env.glob` is independent of the map of files. A listed podspec that is not in the map leads to `PathNotFound` at the rewrite, and reads as having no lines.
- Strings are sequences of characters rather than bytes. Encodings and multibyte characters are not modelled.
- The environment answers questions directly. Symfony's defaults for an empty answer (no for confirmations, the offered message for the commit message) are assumed to be part of that answer.
- UploadCommand.ReplaceVersionInPath: uses the corrected rewrite `Podspec.ReplaceVersion`, not `Podspec.ReplaceVersionAsWritten`, so the extra read after a final newline (UploadPodRepoCommand.php:365-373) does not reach the workflow; see Findings.
- UploadCommand.ReplaceVersionInPath: does not model the temporary file's append mode (UploadPodRepoCommand.php:358). A `.tmp` file left by an earlier run would end up in front of the new content; the model assumes there is none.
- Podspec.DeclarationLines: matches the old version literally. At UploadPodRepoCommand.php:360 the version goes into the pattern unescaped, so each `.` matches any character there. When the pattern matches the same single line either way, the results agree.
- Version.NatToString: is unbounded. PHP turns `$lastVersionNumber+1` into a float past `PHP_INT_MAX` (UploadPodRepoCommand.php:393 and :401) and prints it in exponent form; the model keeps counting.
- A podspec without a readable version is not rejected when it is read. Its version reads as "", which bumps to ".1" (`Version.IncrementExamples`), and the run goes on to the rewrite. There the model stops with `NotReplaced("", ".1", path)` unless some line declares `version = ""` (`Podspec.ReplaceSucceedsIffUnique`). The source goes past the rewrite in the same case as the model, when exactly one line declares `version = ""`. It also goes past it when the file ends in a newline, through the extra read listed under Findings. Otherwise it throws at UploadPodRepoCommand.php:383 too.
- `UpgradeCommand.ModifyPodfileVersion` is modelled as far as the source goes (UpgradePodRepoCommand.php:141-147). It locates the podspec and returns true; nothing is rewritten.
- The `$filename` test (UpgradePodRepoCommand.php:157, UploadPodRepoCommand.php:415) reads the loop variable. It is undefined, and so falsy, exactly when nothing is listed. The model reads it as the last or the first match.
- The glob pattern joins the directory and `*.podspec` with no separator (`Locator.PodspecPattern`). The model keeps it as written; what `glob` lists for it is up to the environment.

## Findings

| source | as written | input that shows it | evidently intended | confidence | as-written member | corrected member |
|---|---|---|---|---|---|---|
| src/barteljan/pods/Commands/UploadPodRepoCommand.php:365-375 | `while (!feof(...))` reads once more after a final newline (at once on an empty file) and gets `false`, which `==` equates with an empty key, so a file without a `version = "<old>"` line counts as rewritten and is renamed over itself | the podspec `s.version = '1.0'` followed by a newline, rewriting "1.0" to "1.1" (`Podspec.SingleQuotedExample`) | the rewrite takes effect only when exactly one line declares the old version, and otherwise throws | not executed | Podspec.AsWrittenAcceptsMissingDeclaration | Podspec.ReplaceSucceedsIffUnique |

=== FILE: Locator.dfy ===
/**
 `getPodSpecPathInDirectory` of both commands. The file system's `glob` is a
 parameter: it yields the matching paths in its sorted order.
 */
module Locator {
  import opened Strings

  /** The glob pattern: the directory and `*.podspec` joined with no separator in between. */
  function PodspecPattern(directory: string): string {
    directory + "*.podspec"
  }

  /** The upload command's loop: the first match is taken and the loop left at once. */
  function FirstMatch(matches: seq<string>): (r: Option<string>)
    ensures r.None? <==> |matches| == 0
    ensures |matches| > 0 ==> r == Some(matches[0])
  {
    if |matches| == 0 then None else Some(matches[0])
  }

  /** The upgrade command's loop: every match overwrites the previous one; `found` is the value so far. */
  function LastMatchFrom(matches: seq<string>, found: Option<string>): (r: Option<string>)
    ensures |matches| == 0 ==> r == found
    ensures |matches| > 0 ==> r == Some(matches[|matches| - 1])
  {
    if |matches| == 0 then found
    else LastMatchFrom(matches[1..], Some(matches[0]))
  }

  function LastMatch(matches: seq<string>): (r: Option<string>)
    ensures r.None? <==> |matches| == 0
    ensures r.Some? ==> r.value == matches[|matches| - 1]
  {
    LastMatchFrom(matches, None)
  }

  function Reverse(s: seq<string>): (r: seq<string>)
    ensures |r| == |s|
    ensures forall i :: 0 <= i < |s| ==> r[i] == s[|s| - 1 - i]
  {
    if |s| == 0 then [] else Reverse(s[1..]) + [s[0]]
  }

  /** The upgrade command finds what the upload command would find in the reversed listing. */
  lemma LastIsFirstOfReverse(matches: seq<string>)
    ensures LastMatch(matches) == FirstMatch(Reverse(matches))
  {
  }

  /** The two commands pick the same podspec exactly when the listing's ends agree. */
  lemma LocatorsAgree(matches: seq<string>)
    ensures FirstMatch(matches) == LastMatch(matches)
            <==> |matches| == 0 || matches[0] == matches[|matches| - 1]
  {
  }
}

=== FILE: Podspec.dfy ===
/**
 Reading and rewriting the version declaration of a podspec
 (`getPodspecVersionFromPath` and `replaceVersionInPath` of
 UploadPodRepoCommand.php). A podspec's content is a string; `SplitLines`
 cuts it the way `file()` and `fgets()` do.
 */
module Podspec {
  import opened Strings
  import opened Version

  /* ---------------------------------------------------------------------- */
  /* the pattern version(\s)*=(\s)*  (case-insensitive)                     */
  /* ---------------------------------------------------------------------- */

  /** PCRE's `\s`: space, tab, newline, vertical tab, form feed, carriage return. */
  predicate IsSpace(c: char) {
    c == ' ' || c == '\t' || c == '\n' || c == '\U{0B}' || c == '\U{0C}' || c == '\r'
  }

  function ToLower(c: char): char {
    if 'A' <= c <= 'Z' then (c as int + 32) as char else c
  }

  const Keyword: string := "version"

  /** `version` at position `i`, in any letter case. */
  predicate KeywordAt(s: string, i: nat) {
    i + 7 <= |s| && forall k :: 0 <= k < 7 ==> ToLower(s[i + k]) == Keyword[k]
  }

  /** The first position at or after `j` that is not white space. */
  function SkipSpaces(s: string, j: nat): (k: nat)
    requires j <= |s|
    ensures j <= k <= |s|
    ensures forall m :: j <= m < k ==> IsSpace(s[m])
    ensures k < |s| ==> !IsSpace(s[k])
    decreases |s| - j
  {
    if j < |s| && IsSpace(s[j]) then SkipSpaces(s, j + 1) else j
  }

  /** `version(\s)*=(\s)*` matches at `i`; the spaces are greedy and cannot give way to `=`. */
  predicate AssignAt(s: string, i: nat) {
    KeywordAt(s, i) && SkipSpaces(s, i + 7) < |s| && s[SkipSpaces(s, i + 7)] == '='
  }

  predicate MatchesAssign(s: string) {
    exists i: nat :: i < |s| && AssignAt(s, i)
  }

  /** Where the opening quote must stand after a match of `version(\s)*=(\s)*` at `i`. */
  function QuotePos(s: string, i: nat): (q: nat)
    requires AssignAt(s, i)
    ensures i + 7 < q <= |s|
  {
    SkipSpaces(s, SkipSpaces(s, i + 7) + 1)
  }

  /** `version(\s)*=(\s)*"<v>"` matches at `i`, `v` read literally. */
  predicate DeclaresAt(s: string, i: nat, v: string) {
    && AssignAt(s, i)
    && var q := QuotePos(s, i);
    && q + |v| + 2 <= |s|
    && s[q] == '"'
    && s[q + 1..q + 1 + |v|] == v
    && s[q + 1 + |v|] == '"'
  }

  predicate Declares(s: string, v: string) {
    exists i: nat :: i < |s| && DeclaresAt(s, i, v)
  }

  /* ---------------------------------------------------------------------- */
  /* getPodspecVersionFromPath                                              */
  /* ---------------------------------------------------------------------- */

  predicate IsQuote(c: char) {
    c == '"' || c == '\''
  }

  /** The end of the run of digits and dots that starts at `j`. */
  function RunEnd(t: string, j: nat): (e: nat)
    requires j <= |t|
    ensures j <= e <= |t| && IsVersionChars(t[j..e])
    ensures e < |t| ==> !IsVersionChar(t[e])
    decreases |t| - j
  {
    if j < |t| && IsVersionChar(t[j]) then
      var e := RunEnd(t, j + 1);
      assert t[j..e] == [t[j]] + t[j + 1..e];
      e
    else j
  }

  /** `["']([0-9.]+)["']` matches at `i`: the greedy run cannot shrink onto a quote. */
  predicate QuotedRunAt(t: string, i: nat) {
    i < |t| && IsQuote(t[i]) && RunEnd(t, i + 1) > i + 1 && RunEnd(t, i + 1) < |t| && IsQuote(t[RunEnd(t, i + 1)])
  }

  /** `j` is the leftmost position at or after `i` where `["']([0-9.]+)["']` matches. */
  predicate LeftmostQuotedRun(t: string, i: nat, j: nat) {
    i <= j && QuotedRunAt(t, j) && forall m :: i <= m < j ==> !QuotedRunAt(t, m)
  }

  /** The capture of the leftmost match of `["']([0-9.]+)["']` at or after `i`. */
  function FirstQuoted(t: string, i: nat): (r: Option<string>)
    requires i <= |t|
    ensures r.Some? ==> |r.value| > 0 && IsVersionChars(r.value)
    decreases |t| - i
  {
    if i == |t| then None
    else if QuotedRunAt(t, i) then Some(t[i + 1..RunEnd(t, i + 1)])
    else FirstQuoted(t, i + 1)
  }

  /** Nothing is captured exactly when no quoted run starts at or after `i`. */
  lemma {:induction false} FirstQuotedNone(t: string, i: nat)
    requires i <= |t|
    ensures FirstQuoted(t, i).None? <==> forall j :: i <= j < |t| ==> !QuotedRunAt(t, j)
    decreases |t| - i
  {
    if i < |t| && !QuotedRunAt(t, i) {
      assert FirstQuoted(t, i) == FirstQuoted(t, i + 1);
      FirstQuotedNone(t, i + 1);
    }
  }

  /** Whatever is captured is the run of the leftmost quoted run at or after `i`. */
  lemma {:induction false} FirstQuotedSome(t: string, i: nat)
    requires i <= |t| && FirstQuoted(t, i).Some?
    ensures exists j: nat :: LeftmostQuotedRun(t, i, j) && FirstQuoted(t, i).value == t[j + 1..RunEnd(t, j + 1)]
    decreases |t| - i
  {
    if QuotedRunAt(t, i) {
      assert LeftmostQuotedRun(t, i, i);
    } else {
      assert FirstQuoted(t, i) == FirstQuoted(t, i + 1);
      FirstQuotedSome(t, i + 1);
      var j: nat :| LeftmostQuotedRun(t, i + 1, j) && FirstQuoted(t, i + 1).value == t[j + 1..RunEnd(t, j + 1)];
      assert LeftmostQuotedRun(t, i, j);
    }
  }

  /** Whatever leftmost match is found, its capture is the one returned. */
  lemma {:induction false} FirstQuotedLeftmost(t: string, i: nat, j: nat)
    requires j < |t| && LeftmostQuotedRun(t, i, j)
    ensures FirstQuoted(t, i) == Some(t[j + 1..RunEnd(t, j + 1)])
    decreases j - i
  {
    if i < j {
      assert !QuotedRunAt(t, i);
      assert LeftmostQuotedRun(t, i + 1, j);
      FirstQuotedLeftmost(t, i + 1, j);
    }
  }

  /** The lines matching `version(\s)*=(\s)*`, joined, with their newlines dropped. */
  function VersionLine(lines: seq<string>): string {
    RemoveNewlines(Concat(Grep(lines, MatchesAssign)))
  }

  /**
   `getPodspecVersionFromPath`: the first quoted run of digits and dots in the
   version line is captured; `None` stands for the undefined capture (PHP's null).
   */
  function ExtractVersion(lines: seq<string>): (r: Option<string>)
    ensures r.Some? ==> |r.value| > 0 && IsVersionChars(r.value)
  {
    FirstQuoted(VersionLine(lines), 0)
  }

  /**
   No version is read exactly when the version line holds no quoted run of
   digits and dots; otherwise the version read is the leftmost such run.
   */
  lemma ExtractIsLeftmost(lines: seq<string>)
    ensures var t := VersionLine(lines);
            && (ExtractVersion(lines).None? <==> forall j :: 0 <= j < |t| ==> !QuotedRunAt(t, j))
            && (ExtractVersion(lines).Some? ==>
                  exists j: nat :: LeftmostQuotedRun(t, 0, j) && ExtractVersion(lines).value == t[j + 1..RunEnd(t, j + 1)])
  {
    FirstQuotedNone(VersionLine(lines), 0);
    if ExtractVersion(lines).Some? {
      FirstQuotedSome(VersionLine(lines), 0);
    }
  }

  /** A line that does not match `version(\s)*=(\s)*` does not affect the extraction. */
  lemma ExtractIgnoresOtherLines(a: seq<string>, x: string, b: seq<string>)
    requires !MatchesAssign(x)
    ensures ExtractVersion(a + [x] + b) == ExtractVersion(a + b)
  {
    assert [x][1..] == [];
    assert Grep([x], MatchesAssign) == [];
    GrepAppend(a, [x], MatchesAssign);
    assert Grep(a + [x], MatchesAssign) == Grep(a, MatchesAssign);
    GrepAppend(a + [x], b, MatchesAssign);
    GrepAppend(a, b, MatchesAssign);
    assert Grep(a + [x] + b, MatchesAssign) == Grep(a + b, MatchesAssign);
  }

  /** `["']<v>["']` opens at `n` in `t`, with no quote of either kind before it. */
  predicate QuotedFirstAt(t: string, n: nat, v: string) {
    && n + |v| + 1 < |t|
    && IsQuote(t[n]) && t[n + 1..n + 1 + |v|] == v && IsQuote(t[n + 1 + |v|])
    && forall k :: 0 <= k < n ==> !IsQuote(t[k])
  }

  /** A quoted run of digits and dots with no quote of either kind before it is the one captured. */
  lemma FirstQuotedFinds(t: string, n: nat, v: string)
    requires QuotedFirstAt(t, n, v)
    requires |v| > 0 && IsVersionChars(v)
    ensures FirstQuoted(t, 0) == Some(v)
  {
    RunEndOver(t, n + 1, v);
    assert QuotedRunAt(t, n);
    assert LeftmostQuotedRun(t, 0, n);
    FirstQuotedLeftmost(t, 0, n);
  }

  /** Whatever follows does not move a first quoted run. */
  lemma QuotedFirstAppend(t: string, n: nat, v: string, u: string)
    requires QuotedFirstAt(t, n, v)
    ensures QuotedFirstAt(t + u, n, v)
  {
    assert (t + u)[n + 1..n + 1 + |v|] == t[n + 1..n + 1 + |v|];
  }

  /** In `pre`, a quote, `v`, a quote and `post`, the run opens at `|pre|`. */
  lemma QuotedShape(pre: string, o: char, v: string, c: char, post: string)
    requires IsQuote(o) && IsQuote(c)
    requires forall k :: 0 <= k < |pre| ==> !IsQuote(pre[k])
    ensures QuotedFirstAt(pre + [o] + v + [c] + post, |pre|, v)
  {
    var t := pre + [o] + v + [c] + post;
    assert t[|pre| + 1..|pre| + 1 + |v|] == v;
    forall k | 0 <= k < |pre| ensures !IsQuote(t[k]) {
      assert t[k] == pre[k];
    }
  }

  lemma {:induction false} RunEndOver(t: string, j: nat, v: string)
    requires j + |v| < |t| && t[j..j + |v|] == v && IsVersionChars(v)
    requires !IsVersionChar(t[j + |v|])
    ensures RunEnd(t, j) == j + |v|
    decreases |v|
  {
    if |v| > 0 {
      assert t[j] == v[0];
      assert t[j + 1..j + 1 + |v[1..]|] == v[1..];
      RunEndOver(t, j + 1, v[1..]);
    }
  }

  lemma {:induction false} GrepNone(xs: seq<string>, p: string -> bool)
    requires forall j :: 0 <= j < |xs| ==> !p(xs[j])
    ensures Grep(xs, p) == []
  {
    if |xs| > 0 {
      forall j | 0 <= j < |xs[1..]| ensures !p(xs[1..][j]) {
        assert xs[1..][j] == xs[j + 1];
      }
      GrepNone(xs[1..], p);
    }
  }

  lemma RemoveNewlinesNone(s: string)
    requires forall k :: 0 <= k < |s| ==> s[k] != '\n'
    ensures RemoveNewlines(s) == s
    decreases |s|
  {
    if |s| > 0 {
      RemoveNewlinesNone(s[1..]);
      assert s == [s[0]] + s[1..];
    }
  }

  /** Grepping from the first satisfying line on: that line, then whatever the rest yields. */
  lemma {:induction false} GrepFrom(xs: seq<string>, p: string -> bool, k: nat)
    requires k < |xs| && p(xs[k])
    requires forall j :: 0 <= j < k ==> !p(xs[j])
    ensures Grep(xs, p) == [xs[k]] + Grep(xs[k + 1..], p)
  {
    if k == 0 {
      assert xs[1..] == xs[k + 1..];
    } else {
      assert !p(xs[0]);
      forall j | 0 <= j < k - 1 ensures !p(xs[1..][j]) {
        assert xs[1..][j] == xs[j + 1];
      }
      assert xs[1..][k - 1] == xs[k];
      GrepFrom(xs[1..], p, k - 1);
      assert xs[1..][k..] == xs[k + 1..];
    }
  }

  /** Dropping the newlines of a quoted run keeps the run and its quotes. */
  lemma RemoveNewlinesQuoted(pre: string, o: char, v: string, c: char, post: string)
    requires o != '\n' && c != '\n' && IsVersionChars(v)
    ensures RemoveNewlines(pre + [o] + v + [c] + post)
            == RemoveNewlines(pre) + [o] + v + [c] + RemoveNewlines(post)
  {
    RemoveNewlinesAppend(pre + [o] + v + [c], post);
    RemoveNewlinesAppend(pre + [o] + v, [c]);
    RemoveNewlinesAppend(pre + [o], v);
    RemoveNewlinesAppend(pre, [o]);
    RemoveNewlinesNone([o]);
    RemoveNewlinesNone([c]);
    RemoveNewlinesNone(v);
  }

  /** The version line starts with the first matching line, newlines dropped. */
  lemma VersionLineFrom(lines: seq<string>, k: nat)
    requires k < |lines| && MatchesAssign(lines[k])
    requires forall j :: 0 <= j < k ==> !MatchesAssign(lines[j])
    ensures VersionLine(lines) == RemoveNewlines(lines[k]) + RemoveNewlines(Concat(Grep(lines[k + 1..], MatchesAssign)))
  {
    var rest := Grep(lines[k + 1..], MatchesAssign);
    GrepFrom(lines, MatchesAssign, k);
    assert ([lines[k]] + rest)[1..] == rest;
    assert Concat([lines[k]] + rest) == lines[k] + Concat(rest);
    RemoveNewlinesAppend(lines[k], Concat(rest));
  }

  /** A line whose first quote opens a quoted run keeps it so once its newlines are dropped. */
  lemma LineQuotedFirst(line: string, q: nat, v: string)
    requires QuotedFirstAt(line, q, v) && IsVersionChars(v)
    ensures QuotedFirstAt(RemoveNewlines(line), |RemoveNewlines(line[..q])|, v)
  {
    var o, c := line[q], line[q + 1 + |v|];
    var pre := line[..q];
    var post := line[q + 2 + |v|..];
    assert line == pre + [o] + v + [c] + post;
    RemoveNewlinesQuoted(pre, o, v, c, post);
    var p' := RemoveNewlines(pre);
    forall i | 0 <= i < |p'| ensures !IsQuote(p'[i]) {
      assert p'[i] in pre;
    }
    QuotedShape(p', o, v, c, RemoveNewlines(post));
  }

  /**
   When the first line matching `version(\s)*=(\s)*` has as its first quote,
   of either kind, the opening of a quoted run `v` of digits and dots, the
   extracted version is `v`, whatever the later matching lines hold.
   */
  lemma ExtractFirstDeclaration(lines: seq<string>, k: nat, q: nat, v: string)
    requires k < |lines| && QuotedFirstAt(lines[k], q, v)
    requires MatchesAssign(lines[k])
    requires forall j :: 0 <= j < k ==> !MatchesAssign(lines[j])
    requires |v| > 0 && IsVersionChars(v)
    ensures ExtractVersion(lines) == Some(v)
  {
    VersionLineFrom(lines, k);
    LineQuotedFirst(lines[k], q, v);
    var n := |RemoveNewlines(lines[k][..q])|;
    QuotedFirstAppend(RemoveNewlines(lines[k]), n, v, RemoveNewlines(Concat(Grep(lines[k + 1..], MatchesAssign))));
    FirstQuotedFinds(VersionLine(lines), n, v);
  }

  /** A line without the letter v, in either case, cannot match `version(\s)*=(\s)*`. */
  lemma NoAssignWithoutV(s: string)
    requires 'v' !in s && 'V' !in s
    ensures !MatchesAssign(s)
  {
    assert Keyword[0] == 'v';
    forall i: nat | i < |s| ensures !AssignAt(s, i) {
      assert s[i] != 'v' && s[i] != 'V';
      assert ToLower(s[i]) != Keyword[0];
    }
  }

  lemma KeywordLiteral(s: string, i: nat)
    requires i + 7 <= |s| && s[i..i + 7] == Keyword
    ensures KeywordAt(s, i)
  {
    forall k | 0 <= k < 7 ensures ToLower(s[i + k]) == Keyword[k] {
      assert s[i + k] == s[i..i + 7][k];
    }
  }

  lemma ExampleLineAssigns(line: string, q: nat, v: string)
    requires line == "  s.version = \"2.3.1\"\n" && q == 14 && v == "2.3.1"
    ensures MatchesAssign(line)
    ensures q + |v| + 1 < |line|
    ensures line[q] == '"' && line[q + 1..q + 1 + |v|] == v && line[q + 1 + |v|] == '"'
    ensures forall i :: 0 <= i < q ==> !IsQuote(line[i])
  {
    assert line[4..11] == Keyword;
    KeywordLiteral(line, 4);
    assert SkipSpaces(line, 12) == 12;
    assert SkipSpaces(line, 11) == 12;
    assert AssignAt(line, 4);
    var pre := "  s.version = ";
    assert line == pre + ("\"" + (v + ("\"" + "\n")));
    QuotedAt(line, pre, v, "\n", q);
    assert '"' !in pre && '\'' !in pre;
    forall i | 0 <= i < q ensures !IsQuote(line[i]) {
      assert line[i] == pre[i] && pre[i] in pre;
    }
  }

  /** In `pre`, a quote, `v`, a quote and `post`, each part sits where the lengths before it put it. */
  lemma QuotedAt(s: string, pre: string, v: string, post: string, n: int)
    requires s == pre + ("\"" + (v + ("\"" + post))) && n == |pre|
    ensures n + |v| + 1 < |s|
    ensures s[n] == '"' && s[n + 1..n + 1 + |v|] == v && s[n + 1 + |v|] == '"'
    ensures forall i :: 0 <= i < n ==> s[i] == pre[i]
  {
  }

  lemma HeaderLineNoAssign(line: string)
    requires line == "Pod::Spec.new do |s|\n"
    ensures !MatchesAssign(line)
  {
    forall i | 0 <= i < |line| ensures line[i] != 'v' && line[i] != 'V' {
    }
    NoAssignWithoutV(line);
  }

  /** A small podspec whose only version line is `s.version = "2.3.1"`. */
  lemma ExtractExample(header: string, line: string, footer: string)
    requires header == "Pod::Spec.new do |s|\n" && line == "  s.version = \"2.3.1\"\n" && footer == "end\n"
    ensures ExtractVersion([header, line, footer]) == Some("2.3.1")
  {
    var lines := [header, line, footer];
    ExampleLineAssigns(line, 14, "2.3.1");
    HeaderLineNoAssign(header);
    NoAssignWithoutV(footer);
    forall j | 0 <= j < |lines| && j != 1 ensures !MatchesAssign(lines[j]) {
      assert j == 0 || j == 2;
    }
    assert IsVersionChars("2.3.1");
    ExtractFirstDeclaration(lines, 1, 14, "2.3.1");
  }

  /** The single-quoted declaration `s.version = '1.0'` matches, and its first quote opens "1.0". */
  lemma SingleQuotedLineAssigns(line: string, q: nat, v: string)
    requires line == "s.version = '1.0'\n" && q == 12 && v == "1.0"
    ensures MatchesAssign(line) && QuotedFirstAt(line, q, v) && IsVersionChars(v)
  {
    assert line[2..9] == Keyword;
    KeywordLiteral(line, 2);
    assert SkipSpaces(line, 10) == 10;
    assert SkipSpaces(line, 9) == 10;
    assert AssignAt(line, 2);
    var pre := "s.version = ";
    assert line == pre + ['\''] + v + ['\''] + "\n";
    forall k | 0 <= k < |pre| ensures !IsQuote(pre[k]) {
    }
    QuotedShape(pre, '\'', v, '\'', "\n");
  }

  /** `s.swift_version = '5.0'` matches `version(\s)*=(\s)*` as well. */
  lemma SwiftVersionLineAssigns(line: string)
    requires line == "s.swift_version = '5.0'\n"
    ensures MatchesAssign(line)
  {
    assert line[8..15] == Keyword;
    KeywordLiteral(line, 8);
    assert SkipSpaces(line, 16) == 16;
    assert SkipSpaces(line, 15) == 16;
    assert AssignAt(line, 8);
  }

  /**
   A single-quoted declaration followed by another matching line: both lines
   join into the version line, and the version read is the declaration's.
   */
  lemma SwiftVersionExample(first: string, second: string, v: string)
    requires first == "s.version = '1.0'\n" && second == "s.swift_version = '5.0'\n" && v == "1.0"
    ensures MatchesAssign(second)
    ensures ExtractVersion([first, second]) == Some(v)
  {
    SingleQuotedLineAssigns(first, 12, v);
    SwiftVersionLineAssigns(second);
    ExtractFirstDeclaration([first, second], 0, 12, v);
  }

  /* ---------------------------------------------------------------------- */
  /* replaceVersionInPath                                                   */
  /* ---------------------------------------------------------------------- */

  /** The lines matching `version(\s)*=(\s)*"<v>"`, in file order. */
  function DeclarationLines(lines: seq<string>, v: string): (r: seq<string>) {
    Grep(lines, (l: string) => Declares(l, v))
  }

  /** The copy loop: a line equal to `key` is written as `str_replace(old, new, key)`, any other verbatim. */
  function RewriteLines(lines: seq<string>, key: string, oldVersion: string, newVersion: string): (r: seq<string>) {
    if |lines| == 0 then []
    else [if lines[0] == key then StrReplace(oldVersion, newVersion, key) else lines[0]]
         + RewriteLines(lines[1..], key, oldVersion, newVersion)
  }

  /**
   `replaceVersionInPath` on the file's content (the file is known to exist):
   the key is the concatenation of the declaring lines, and the temporary copy
   replaces the original only if some line equalled the key. `None` is the
   exception thrown after the temporary file is deleted; the caller keeps the
   original content.
   */
  function ReplaceVersion(content: string, oldVersion: string, newVersion: string): (r: Option<string>) {
    var lines := SplitLines(content);
    var key := Concat(DeclarationLines(lines, oldVersion));
    if key in lines then Some(Concat(RewriteLines(lines, key, oldVersion, newVersion)))
    else None
  }

  lemma NoEmptyLine(ls: seq<string>)
    requires WellFormedLines(ls)
    ensures "" !in ls
  {
    forall j | 0 <= j < |ls| ensures ls[j] != "" {
      assert LineShaped(ls[j]);
    }
  }

  /** Two or more declaring lines join into a key with an inner newline, which no line has. */
  lemma SeveralNotALine(ls: seq<string>, p: string -> bool)
    requires WellFormedLines(ls) && |Grep(ls, p)| >= 2
    ensures Concat(Grep(ls, p)) !in ls
  {
    var d := Grep(ls, p);
    GrepFirstNotLast(ls, p);
    var i :| 0 <= i < |ls| - 1 && ls[i] == d[0];
    assert LineShaped(ls[i]) && ls[i][|ls[i]| - 1] == '\n';
    assert d[1] in ls;
    var j1 :| 0 <= j1 < |ls| && ls[j1] == d[1];
    assert LineShaped(ls[j1]);
    var key := Concat(d);
    assert Concat(d[1..]) == d[1] + Concat(d[2..]);
    assert key == d[0] + (d[1] + Concat(d[2..]));
    var n := |d[0]| - 1;
    assert key[n] == '\n';
    assert n < |key| - 1;
    forall j | 0 <= j < |ls| ensures ls[j] != key {
      assert LineShaped(ls[j]);
      if |ls[j]| == |key| {
        assert ls[j][n] != '\n';
      }
    }
  }

  /** The rewrite takes effect exactly when one line, and only one, declares the old version. */
  lemma ReplaceSucceedsIffUnique(content: string, oldVersion: string, newVersion: string)
    ensures ReplaceVersion(content, oldVersion, newVersion).Some?
            <==> |DeclarationLines(SplitLines(content), oldVersion)| == 1
  {
    var lines := SplitLines(content);
    var d := DeclarationLines(lines, oldVersion);
    var key := Concat(d);
    if |d| == 0 {
      NoEmptyLine(lines);
    } else if |d| == 1 {
      assert key == d[0] + Concat(d[1..]);
      assert key == d[0];
    } else {
      SeveralNotALine(lines, (l: string) => Declares(l, oldVersion));
    }
  }

  lemma {:induction false} RewriteLinesAbsent(lines: seq<string>, key: string, oldVersion: string, newVersion: string)
    requires key !in lines
    ensures RewriteLines(lines, key, oldVersion, newVersion) == lines
  {
    if |lines| > 0 {
      assert key !in lines[1..];
      RewriteLinesAbsent(lines[1..], key, oldVersion, newVersion);
    }
  }

  lemma {:induction false} RewriteLinesAt(lines: seq<string>, key: string, oldVersion: string, newVersion: string, k: nat)
    requires k < |lines| && lines[k] == key
    requires forall j :: 0 <= j < |lines| && j != k ==> lines[j] != key
    ensures RewriteLines(lines, key, oldVersion, newVersion)
            == lines[..k] + [StrReplace(oldVersion, newVersion, key)] + lines[k + 1..]
  {
    if k == 0 {
      assert key !in lines[1..] by {
        forall j | 0 <= j < |lines[1..]| ensures lines[1..][j] != key {
          assert lines[1..][j] == lines[j + 1];
        }
      }
      RewriteLinesAbsent(lines[1..], key, oldVersion, newVersion);
    } else {
      forall j | 0 <= j < |lines[1..]| && j != k - 1 ensures lines[1..][j] != key {
        assert lines[1..][j] == lines[j + 1];
      }
      RewriteLinesAt(lines[1..], key, oldVersion, newVersion, k - 1);
      assert lines[..k] == [lines[0]] + lines[1..][..k - 1];
      assert lines[k + 1..] == lines[1..][k..];
    }
  }

  /** With a single declaring line, the key is that line and no other line equals it. */
  lemma UniqueDeclaration(lines: seq<string>, v: string) returns (k: nat)
    requires |DeclarationLines(lines, v)| == 1
    ensures k < |lines| && Declares(lines[k], v)
    ensures Concat(DeclarationLines(lines, v)) == lines[k]
    ensures forall j :: 0 <= j < |lines| && j != k ==> lines[j] != lines[k]
  {
    var p := (l: string) => Declares(l, v);
    var d := DeclarationLines(lines, v);
    assert d[0] in lines;
    k :| 0 <= k < |lines| && lines[k] == d[0];
    assert Concat(d) == d[0] + Concat(d[1..]);
    forall j | 0 <= j < |lines| && j != k ensures lines[j] != lines[k] {
      if lines[j] == lines[k] {
        if j < k { GrepTwo(lines, p, j, k); } else { GrepTwo(lines, p, k, j); }
        assert false;
      }
    }
  }

  lemma ReplaceAt(content: string, oldVersion: string, newVersion: string, k: nat)
    requires var lines := SplitLines(content);
             && k < |lines| && Concat(DeclarationLines(lines, oldVersion)) == lines[k]
             && forall j :: 0 <= j < |lines| && j != k ==> lines[j] != lines[k]
    ensures var lines := SplitLines(content);
            ReplaceVersion(content, oldVersion, newVersion)
            == Some(Concat(lines[..k]) + StrReplace(oldVersion, newVersion, lines[k]) + Concat(lines[k + 1..]))
  {
    var lines := SplitLines(content);
    var key := lines[k];
    var r := StrReplace(oldVersion, newVersion, key);
    RewriteLinesAt(lines, key, oldVersion, newVersion, k);
    var out := lines[..k] + [r] + lines[k + 1..];
    assert out[..k] == lines[..k] && out[k] == r && out[k + 1..] == lines[k + 1..];
    ConcatAround(out, k);
  }

  /**
   On success the file is byte-identical except for the one line declaring
   the old version, which becomes `str_replace(old, new, line)`; when the old
   version is a non-empty run of digits and dots, that line then declares the
   new version.
   */
  lemma ReplaceRewritesOnlyTheDeclaration(content: string, oldVersion: string, newVersion: string)
    requires ReplaceVersion(content, oldVersion, newVersion).Some?
    ensures var lines := SplitLines(content);
            exists k :: 0 <= k < |lines| && Declares(lines[k], oldVersion)
              && ReplaceVersion(content, oldVersion, newVersion)
                 == Some(Concat(lines[..k]) + StrReplace(oldVersion, newVersion, lines[k]) + Concat(lines[k + 1..]))
              && (|oldVersion| > 0 && IsVersionChars(oldVersion) ==>
                    Declares(StrReplace(oldVersion, newVersion, lines[k]), newVersion))
  {
    var lines := SplitLines(content);
    ReplaceSucceedsIffUnique(content, oldVersion, newVersion);
    var k := UniqueDeclaration(lines, oldVersion);
    ReplaceAt(content, oldVersion, newVersion, k);
    if |oldVersion| > 0 && IsVersionChars(oldVersion) {
      var i: nat :| i < |lines[k]| && DeclaresAt(lines[k], i, oldVersion);
      RewrittenLineDeclaresNew(lines[k], oldVersion, newVersion, i);
    }
  }

  /** Rewriting a version to itself leaves the content as it was. */
  lemma ReplaceSameVersion(content: string, v: string)
    requires ReplaceVersion(content, v, v).Some?
    ensures ReplaceVersion(content, v, v) == Some(content)
  {
    var lines := SplitLines(content);
    ReplaceSucceedsIffUnique(content, v, v);
    var k := UniqueDeclaration(lines, v);
    ReplaceAt(content, v, v, k);
    StrReplaceSelf(v, lines[k]);
    ConcatAround(lines, k);
  }

  /* ---------------------------------------------------------------------- */
  /* the rewritten line declares the new version                            */
  /* ---------------------------------------------------------------------- */

  /** `c` occurs nowhere in `search`. */
  predicate Foreign(c: char, search: string) {
    forall k :: 0 <= k < |search| ==> search[k] != c
  }

  lemma NoStraddleAtForeign(search: string, u: string, v: string)
    requires (|u| > 0 && Foreign(u[|u| - 1], search)) || (|v| > 0 && Foreign(v[0], search))
    ensures NoStraddle(search, u, v)
  {
    forall p | 0 <= p < |u| < p + |search| <= |u| + |v|
      ensures !OccursAt(search, u + v, p)
    {
      var w := (u + v)[p..p + |search|];
      if |u| > 0 && Foreign(u[|u| - 1], search) {
        assert w[|u| - 1 - p] == u[|u| - 1];
      } else {
        assert w[|u| - p] == v[0];
      }
    }
  }

  lemma AbsentInForeign(search: string, s: string)
    requires |search| > 0
    requires forall k :: 0 <= k < |s| ==> Foreign(s[k], search)
    ensures forall p :: !OccursAt(search, s, p)
  {
    forall p ensures !OccursAt(search, s, p) {
      if 0 <= p && p + |search| <= |s| {
        assert s[p..p + |search|][0] == s[p];
      }
    }
  }

  /** Spaces are skipped alike in two strings that agree up to `bound`, when the skip stops before it. */
  lemma {:induction false} SkipSpacesPrefix(s1: string, s2: string, j: nat, bound: nat)
    requires j <= bound <= |s1| && bound <= |s2| && s1[..bound] == s2[..bound]
    requires SkipSpaces(s1, j) < bound
    ensures SkipSpaces(s2, j) == SkipSpaces(s1, j)
    decreases bound - j
  {
    assert s1[j] == s1[..bound][j] == s2[..bound][j] == s2[j];
    if IsSpace(s1[j]) {
      SkipSpacesPrefix(s1, s2, j + 1, bound);
    }
  }

  /** Spaces are skipped alike after a prefix is put in front. */
  lemma {:induction false} SkipSpacesShift(pre: string, s: string, j: nat)
    requires j <= |s|
    ensures SkipSpaces(pre + s, |pre| + j) == |pre| + SkipSpaces(s, j)
    decreases |s| - j
  {
    if j < |s| {
      assert (pre + s)[|pre| + j] == s[j];
      if IsSpace(s[j]) {
        SkipSpacesShift(pre, s, j + 1);
      }
    }
  }

  lemma KeywordShift(pre: string, s: string)
    ensures KeywordAt(pre + s, |pre|) <==> KeywordAt(s, 0)
  {
    if 7 <= |s| {
      forall k | 0 <= k < 7 ensures (pre + s)[|pre| + k] == s[k] {
      }
    }
  }

  lemma AssignShift(pre: string, s: string)
    ensures AssignAt(pre + s, |pre|) <==> AssignAt(s, 0)
    ensures AssignAt(s, 0) ==> QuotePos(pre + s, |pre|) == |pre| + QuotePos(s, 0)
  {
    var t := pre + s;
    KeywordShift(pre, s);
    if KeywordAt(s, 0) {
      SkipSpacesShift(pre, s, 7);
      var j := SkipSpaces(s, 7);
      if j < |s| {
        assert t[|pre| + j] == s[j];
        SkipSpacesShift(pre, s, j + 1);
      }
    }
  }

  /** Whether a declaration starts at the front of `s` does not depend on what precedes `s`. */
  lemma DeclaresShift(pre: string, s: string, v: string)
    ensures DeclaresAt(pre + s, |pre|, v) <==> DeclaresAt(s, 0, v)
  {
    var t := pre + s;
    AssignShift(pre, s);
    if AssignAt(s, 0) {
      var q := QuotePos(s, 0);
      if q + |v| + 2 <= |s| {
        assert t[|pre| + q] == s[q];
        assert t[|pre| + q + 1 + |v|] == s[q + 1 + |v|];
        assert t[|pre| + q + 1..|pre| + q + 1 + |v|] == s[q + 1..q + 1 + |v|];
      }
    }
  }

  /** Before and including the opening quote, a declaration holds no digit and no dot. */
  lemma DeclarationHeadForeign(w: string, v: string)
    requires DeclaresAt(w, 0, v) && IsVersionChars(v)
    ensures forall k :: 0 <= k <= QuotePos(w, 0) ==> Foreign(w[k], v)
  {
    var j := SkipSpaces(w, 7);
    var q := QuotePos(w, 0);
    forall k | 0 <= k <= q ensures Foreign(w[k], v) {
      if k < 7 {
        assert ToLower(w[k]) == Keyword[k];
      } else if k < j {
        assert IsSpace(w[k]);
      } else if k == j {
        assert w[k] == '=';
      } else if k < q {
        assert IsSpace(w[k]);
      } else {
        assert w[k] == '"';
      }
      assert !IsVersionChar(w[k]);
    }
  }

  lemma StrReplaceAtMatch(search: string, subst: string, c: string)
    requires |search| > 0
    ensures StrReplace(search, subst, search + c) == subst + StrReplace(search, subst, c)
  {
    assert (search + c)[..|search|] == search;
    assert (search + c)[|search|..] == c;
  }

  lemma StrReplaceAtForeign(search: string, subst: string, c: string)
    requires |search| > 0 && |c| > 0 && Foreign(c[0], search)
    ensures StrReplace(search, subst, c) == [c[0]] + StrReplace(search, subst, c[1..])
  {
    if |c| < |search| {
      StrReplaceShort(search, subst, c[1..]);
      assert c == [c[0]] + c[1..];
    } else {
      assert c[..|search|][0] == c[0];
    }
  }

  /** The parts of `s`, that is `m + x` with `x` the quoted `v` and a tail, sit where their lengths put them. */
  lemma QuoteSplice(s: string, m: string, x: string, v: string, t: string, n: int)
    requires s == m + x && x == v + ("\"" + t) && n == |m|
    ensures |s| == n + |v| + 1 + |t|
    ensures s[..n] == m && s[n..n + |v|] == v && s[n + |v|] == '"'
  {
  }

  /** Strings that agree up to past the opening quote of an assignment hold the same assignment. */
  lemma AssignPrefix(s1: string, s2: string, bound: int)
    requires AssignAt(s1, 0) && QuotePos(s1, 0) < bound <= |s1| && bound <= |s2| && s1[..bound] == s2[..bound]
    ensures AssignAt(s2, 0) && QuotePos(s2, 0) == QuotePos(s1, 0)
    ensures s2[QuotePos(s1, 0)] == s1[QuotePos(s1, 0)]
  {
    forall k | 0 <= k < bound ensures s2[k] == s1[k] {
      assert s1[k] == s1[..bound][k] && s2[k] == s2[..bound][k];
    }
    var j := SkipSpaces(s1, 7);
    SkipSpacesPrefix(s1, s2, 7, bound);
    SkipSpacesPrefix(s1, s2, j + 1, bound);
  }

  /** Up to and including the opening quote a declaration is left as it is. */
  lemma ReplaceAfterQuote(w: string, oldVersion: string, newVersion: string, i: int)
    requires DeclaresAt(w, 0, oldVersion) && i == QuotePos(w, 0) + 1
    requires |oldVersion| > 0 && IsVersionChars(oldVersion)
    ensures StrReplace(oldVersion, newVersion, w) == w[..i] + StrReplace(oldVersion, newVersion, w[i..])
  {
    var q := QuotePos(w, 0);
    var m := w[..i];
    assert w == m + w[i..];
    DeclarationHeadForeign(w, oldVersion);
    assert m[|m| - 1] == w[q];
    AbsentInForeign(oldVersion, m);
    StrReplaceAbsent(oldVersion, newVersion, m);
    NoStraddleAtForeign(oldVersion, m, w[i..]);
    StrReplaceSplit(oldVersion, newVersion, m, w[i..]);
  }

  /** `old` at `i` of `w`, followed by a quote: the occurrence is replaced and the quote kept. */
  lemma ReplaceQuoted(w: string, i: int, j: int, oldVersion: string, newVersion: string)
    requires |oldVersion| > 0 && IsVersionChars(oldVersion)
    requires 0 <= i && i + |oldVersion| < |w| && j == i + |oldVersion| + 1
    requires w[i..i + |oldVersion|] == oldVersion && w[i + |oldVersion|] == '"'
    ensures StrReplace(oldVersion, newVersion, w[i..])
            == newVersion + ("\"" + StrReplace(oldVersion, newVersion, w[j..]))
  {
    var rest := w[j..];
    var c := "\"" + rest;
    assert w[i..] == oldVersion + c;
    StrReplaceAtMatch(oldVersion, newVersion, c);
    assert Foreign('"', oldVersion);
    StrReplaceAtForeign(oldVersion, newVersion, c);
    assert c[1..] == rest;
  }

  /** A string that agrees with a declaration up to its opening quote, then quotes `v`, declares `v`. */
  lemma DeclarationOfNew(w: string, oldVersion: string, v: string, i: int, x: string, tail: string, w': string)
    requires DeclaresAt(w, 0, oldVersion) && i == QuotePos(w, 0) + 1
    requires w' == w[..i] + x && x == v + ("\"" + tail)
    ensures DeclaresAt(w', 0, v)
  {
    QuoteSplice(w', w[..i], x, v, tail, i);
    AssignPrefix(w, w', i);
  }

  /**
   `str_replace(old, new, line)` on a line declaring `old`, where `old` is a
   non-empty run of digits and dots, yields a line declaring `new`: nothing in
   `version = "` can hold an occurrence of `old`.
   */
  lemma RewrittenLineDeclaresNew(line: string, oldVersion: string, newVersion: string, i: nat)
    requires i < |line| && DeclaresAt(line, i, oldVersion)
    requires |oldVersion| > 0 && IsVersionChars(oldVersion)
    ensures Declares(StrReplace(oldVersion, newVersion, line), newVersion)
  {
    var a := line[..i];
    var w := line[i..];
    assert line == a + w;
    DeclaresShift(a, w, oldVersion);
    DeclarationRewritten(w, oldVersion, newVersion);
    ReplaceBeforeDeclaration(a, w, oldVersion, newVersion);
    DeclaresAfter(StrReplace(oldVersion, newVersion, a), StrReplace(oldVersion, newVersion, w), newVersion);
  }

  lemma DeclarationRewritten(w: string, oldVersion: string, newVersion: string)
    requires DeclaresAt(w, 0, oldVersion)
    requires |oldVersion| > 0 && IsVersionChars(oldVersion)
    ensures DeclaresAt(StrReplace(oldVersion, newVersion, w), 0, newVersion)
  {
    var i := QuotePos(w, 0) + 1;
    var j := i + |oldVersion| + 1;
    ReplaceAfterQuote(w, oldVersion, newVersion, i);
    ReplaceQuoted(w, i, j, oldVersion, newVersion);
    var x := StrReplace(oldVersion, newVersion, w[i..]);
    var tail := StrReplace(oldVersion, newVersion, w[j..]);
    DeclarationOfNew(w, oldVersion, newVersion, i, x, tail, StrReplace(oldVersion, newVersion, w));
  }

  /** What precedes a declaration is replaced on its own: no occurrence can reach into `version`. */
  lemma ReplaceBeforeDeclaration(a: string, w: string, oldVersion: string, newVersion: string)
    requires DeclaresAt(w, 0, oldVersion)
    requires IsVersionChars(oldVersion)
    ensures StrReplace(oldVersion, newVersion, a + w)
            == StrReplace(oldVersion, newVersion, a) + StrReplace(oldVersion, newVersion, w)
  {
    DeclarationHeadForeign(w, oldVersion);
    assert Foreign(w[0], oldVersion);
    NoStraddleAtForeign(oldVersion, a, w);
    StrReplaceSplit(oldVersion, newVersion, a, w);
  }

  lemma DeclaresAfter(a: string, w: string, v: string)
    requires DeclaresAt(w, 0, v)
    ensures Declares(a + w, v)
  {
    DeclaresShift(a, w, v);
    assert |a| < |a + w|;
  }

  /* ---------------------------------------------------------------------- */
  /* replaceVersionInPath as written: the extra read at end of file         */
  /* ---------------------------------------------------------------------- */

  /**
   The loop `while (!feof) { $line = fgets(...); ... }` reads once more after
   a final newline (or at once on an empty file) and gets `false`, and
   `false == $key` holds under PHP's loose comparison when the key is "" or
   "0". That read then sets `$replaced` and writes `str_replace(old, new, key)`.
   */
  function ReplaceVersionAsWritten(content: string, oldVersion: string, newVersion: string): (r: Option<string>) {
    var lines := SplitLines(content);
    var key := Concat(DeclarationLines(lines, oldVersion));
    var falseRead := |content| == 0 || content[|content| - 1] == '\n';
    var falseMatches := falseRead && PhpEmpty(key);
    if key in lines || falseMatches then
      Some(Concat(RewriteLines(lines, key, oldVersion, newVersion))
           + (if falseMatches then StrReplace(oldVersion, newVersion, key) else ""))
    else None
  }

  /**
   As written, a newline-terminated podspec with no `version = "<old>"` line
   is reported as rewritten (and left unchanged) instead of raising the
   exception.
   */
  lemma AsWrittenAcceptsMissingDeclaration(content: string, oldVersion: string, newVersion: string)
    requires |DeclarationLines(SplitLines(content), oldVersion)| == 0
    requires |content| == 0 || content[|content| - 1] == '\n'
    ensures ReplaceVersionAsWritten(content, oldVersion, newVersion) == Some(content)
    ensures ReplaceVersion(content, oldVersion, newVersion) == None
  {
    var lines := SplitLines(content);
    var key := Concat(DeclarationLines(lines, oldVersion));
    assert key == "";
    assert PhpEmpty(key);
    NoEmptyLine(lines);
    RewriteLinesAbsent(lines, key, oldVersion, newVersion);
    assert StrReplace(oldVersion, newVersion, key) == "";
    assert Concat(RewriteLines(lines, key, oldVersion, newVersion)) == content;
    assert content + "" == content;
    ReplaceSucceedsIffUnique(content, oldVersion, newVersion);
  }

  /** A key made of at least one declaring line is neither "" nor "0". */
  lemma DeclarationKeyNotEmpty(lines: seq<string>, v: string)
    requires |DeclarationLines(lines, v)| > 0
    ensures !PhpEmpty(Concat(DeclarationLines(lines, v)))
  {
    var d := DeclarationLines(lines, v);
    assert Declares(d[0], v);
    var i: nat :| i < |d[0]| && DeclaresAt(d[0], i, v);
    assert |d[0]| >= 2;
    assert Concat(d) == d[0] + Concat(d[1..]);
  }

  /** Elsewhere the loop as written behaves as intended. */
  lemma AsWrittenAgreesOtherwise(content: string, oldVersion: string, newVersion: string)
    requires |DeclarationLines(SplitLines(content), oldVersion)| > 0
             || (|content| > 0 && content[|content| - 1] != '\n')
    ensures ReplaceVersionAsWritten(content, oldVersion, newVersion) == ReplaceVersion(content, oldVersion, newVersion)
  {
    var lines := SplitLines(content);
    var key := Concat(DeclarationLines(lines, oldVersion));
    if |DeclarationLines(lines, oldVersion)| > 0 {
      DeclarationKeyNotEmpty(lines, oldVersion);
    }
    var falseMatches := (|content| == 0 || content[|content| - 1] == '\n') && PhpEmpty(key);
    assert !falseMatches;
    if key in lines {
      var out := Concat(RewriteLines(lines, key, oldVersion, newVersion));
      assert out + "" == out;
    }
  }

  /** A line without a double quote declares no version. */
  lemma NoDeclarationWithoutQuote(s: string, v: string)
    requires '"' !in s
    ensures !Declares(s, v)
  {
    forall i: nat | i < |s| ensures !DeclaresAt(s, i, v) {
      if AssignAt(s, i) && QuotePos(s, i) < |s| {
        assert s[QuotePos(s, i)] != '"';
      }
    }
  }

  lemma {:induction false} LinesKeepCharacters(content: string, ls: seq<string>, j: nat, k: nat)
    requires Concat(ls) == content && j < |ls| && k < |ls[j]|
    ensures ls[j][k] in content
    decreases j
  {
    assert content == ls[0] + Concat(ls[1..]);
    if j == 0 {
      assert content[k] == ls[0][k];
    } else {
      LinesKeepCharacters(Concat(ls[1..]), ls[1..], j - 1, k);
      var x := ls[j][k];
      assert x in Concat(ls[1..]);
      var n :| 0 <= n < |Concat(ls[1..])| && Concat(ls[1..])[n] == x;
      assert content[|ls[0]| + n] == x;
    }
  }

  /** Content without a double quote has no declaring line. */
  lemma NoDeclarationLinesWithoutQuote(content: string, v: string)
    requires '"' !in content
    ensures |DeclarationLines(SplitLines(content), v)| == 0
  {
    var lines := SplitLines(content);
    forall j | 0 <= j < |lines| ensures !Declares(lines[j], v) {
      forall k | 0 <= k < |lines[j]| ensures lines[j][k] != '"' {
        LinesKeepCharacters(content, lines, j, k);
      }
      NoDeclarationWithoutQuote(lines[j], v);
    }
    GrepNone(lines, (l: string) => Declares(l, v));
  }

  /**
   The concrete input: a single-quoted version on a newline-terminated line is
   reported as rewritten, and the file keeps its old version.
   */
  lemma SingleQuotedExample(content: string)
    requires content == "s.version = '1.0'\n"
    ensures ReplaceVersionAsWritten(content, "1.0", "1.1") == Some(content)
    ensures ReplaceVersion(content, "1.0", "1.1") == None
  {
    assert '"' !in content;
    assert content[|content| - 1] == '\n';
    NoDeclarationLinesWithoutQuote(content, "1.0");
    AsWrittenAcceptsMissingDeclaration(content, "1.0", "1.1");
  }
}

=== FILE: Strings.dfy ===
/**
 The PHP string primitives the two pod commands rely on, over `string` (a
 sequence of characters standing for PHP's byte strings): `empty()`,
 `implode()`, `preg_grep()` with a line predicate, `str_replace()`,
 `strrpos()`, and the line splitting done by `file()` and `fgets()`.
 */
module Strings {

  datatype Option<+T> = None | Some(value: T) {
    function GetOr(default: T): T {
      match this
      case Some(v) => v
      case None => default
    }
  }

  predicate IsDigit(c: char) {
    '0' <= c <= '9'
  }

  predicate IsDigits(s: string) {
    forall i :: 0 <= i < |s| ==> IsDigit(s[i])
  }

  /** PHP's `empty()` on a string: true of "" and of "0". */
  predicate PhpEmpty(s: string) {
    s == "" || s == "0"
  }

  /* ---------------------------------------------------------------------- */
  /* sequence facts, kept apart from the recursive functions below          */
  /* ---------------------------------------------------------------------- */

  lemma SeqAround<T>(s: seq<T>, k: int)
    requires 0 <= k < |s|
    ensures s == (s[..k] + [s[k]]) + s[k + 1..]
  {
  }

  lemma SeqDropFirst<T>(u: seq<T>, v: seq<T>)
    requires |u| > 0
    ensures (u + v)[1..] == u[1..] + v && u == [u[0]] + u[1..] && (u + v)[0] == u[0]
  {
  }

  lemma SeqAssoc<T>(a: seq<T>, b: seq<T>, c: seq<T>)
    ensures a + (b + c) == (a + b) + c
  {
  }

  lemma SeqTakePrefix<T>(u: seq<T>, v: seq<T>, n: int)
    requires 0 <= n <= |u|
    ensures (u + v)[..n] == u[..n]
  {
  }

  /* ---------------------------------------------------------------------- */
  /* implode() and preg_grep()                                              */
  /* ---------------------------------------------------------------------- */

  /** `implode($pieces)`: the pieces joined without glue. */
  function Concat(xs: seq<string>): (r: string)
    ensures |xs| == 0 ==> r == ""
  {
    if |xs| == 0 then "" else xs[0] + Concat(xs[1..])
  }

  lemma {:induction false} ConcatAppend(a: seq<string>, b: seq<string>)
    ensures Concat(a + b) == Concat(a) + Concat(b)
  {
    if |a| == 0 {
      assert a + b == b;
    } else {
      assert (a + b)[1..] == a[1..] + b;
      ConcatAppend(a[1..], b);
    }
  }

  lemma ConcatSingle(x: string)
    ensures Concat([x]) == x
  {
    assert [x][1..] == [];
    assert Concat([x]) == x + Concat([]);
  }

  /** The join of the lines is the lines before `k`, line `k`, then the lines after it. */
  lemma ConcatAround(lines: seq<string>, k: nat)
    requires k < |lines|
    ensures Concat(lines) == Concat(lines[..k]) + lines[k] + Concat(lines[k + 1..])
  {
    var a := lines[..k];
    var b := lines[k + 1..];
    SeqAround(lines, k);
    ConcatAppend(a + [lines[k]], b);
    ConcatAppend(a, [lines[k]]);
    ConcatSingle(lines[k]);
  }

  /** `preg_grep($pattern, $lines)`: the lines satisfying `p`, in order. */
  function Grep(xs: seq<string>, p: string -> bool): (r: seq<string>)
    ensures |r| <= |xs|
    ensures forall i :: 0 <= i < |r| ==> r[i] in xs && p(r[i])
    ensures forall i :: 0 <= i < |xs| && p(xs[i]) ==> xs[i] in r
  {
    if |xs| == 0 then []
    else if p(xs[0]) then [xs[0]] + Grep(xs[1..], p)
    else Grep(xs[1..], p)
  }

  lemma {:induction false} GrepAppend(a: seq<string>, b: seq<string>, p: string -> bool)
    ensures Grep(a + b, p) == Grep(a, p) + Grep(b, p)
  {
    if |a| == 0 {
      assert a + b == b;
    } else {
      assert (a + b)[1..] == a[1..] + b;
      GrepAppend(a[1..], b, p);
    }
  }

  /** Two different positions that both satisfy `p` leave at least two lines in the grep. */
  lemma {:induction false} GrepTwo(xs: seq<string>, p: string -> bool, j: nat, k: nat)
    requires j < k < |xs| && p(xs[j]) && p(xs[k])
    ensures |Grep(xs, p)| >= 2
  {
    if j == 0 {
      assert xs[k] == xs[1..][k - 1];
      assert |Grep(xs[1..], p)| >= 1;
    } else {
      assert xs[j] == xs[1..][j - 1] && xs[k] == xs[1..][k - 1];
      GrepTwo(xs[1..], p, j - 1, k - 1);
    }
  }

  /** When two or more lines survive the grep, the first of them is not the last line. */
  lemma {:induction false} GrepFirstNotLast(xs: seq<string>, p: string -> bool)
    requires |Grep(xs, p)| >= 2
    ensures exists i :: 0 <= i < |xs| - 1 && xs[i] == Grep(xs, p)[0]
  {
    if p(xs[0]) {
      assert |Grep(xs[1..], p)| >= 1;
      assert 0 < |xs| - 1 && xs[0] == Grep(xs, p)[0];
    } else {
      GrepFirstNotLast(xs[1..], p);
      var i :| 0 <= i < |xs[1..]| - 1 && xs[1..][i] == Grep(xs[1..], p)[0];
      assert xs[i + 1] == Grep(xs, p)[0];
    }
  }

  /* ---------------------------------------------------------------------- */
  /* str_replace()                                                          */
  /* ---------------------------------------------------------------------- */

  /** `str_replace("\n", "", $s)`: every newline removed. */
  function RemoveNewlines(s: string): (r: string)
    ensures |r| <= |s|
    ensures forall i :: 0 <= i < |r| ==> r[i] != '\n'
    ensures forall i :: 0 <= i < |r| ==> r[i] in s
  {
    if |s| == 0 then ""
    else if s[0] == '\n' then RemoveNewlines(s[1..])
    else [s[0]] + RemoveNewlines(s[1..])
  }

  lemma {:induction false} RemoveNewlinesAppend(a: string, b: string)
    ensures RemoveNewlines(a + b) == RemoveNewlines(a) + RemoveNewlines(b)
  {
    if |a| == 0 {
      assert a + b == b;
    } else {
      assert (a + b)[1..] == a[1..] + b;
      RemoveNewlinesAppend(a[1..], b);
    }
  }

  /** `search` occurs in `s` at position `p`. */
  predicate OccursAt(search: string, s: string, p: int) {
    0 <= p && p + |search| <= |s| && s[p..p + |search|] == search
  }

  /**
   `str_replace($search, $subst, $s)`: every occurrence of `search` replaced by `subst`,
   scanning left to right without overlap; an empty `search` leaves `s` alone.
   */
  function StrReplace(search: string, subst: string, s: string): (r: string)
    decreases |s|
  {
    if |search| == 0 || |s| < |search| then s
    else if s[..|search|] == search then subst + StrReplace(search, subst, s[|search|..])
    else [s[0]] + StrReplace(search, subst, s[1..])
  }

  /** A string in which `search` does not occur is left unchanged. */
  lemma {:induction false} StrReplaceAbsent(search: string, subst: string, s: string)
    requires forall p :: !OccursAt(search, s, p)
    ensures StrReplace(search, subst, s) == s
    decreases |s|
  {
    if |search| == 0 || |s| < |search| {
    } else {
      assert !OccursAt(search, s, 0);
      forall p ensures !OccursAt(search, s[1..], p) {
        assert !OccursAt(search, s, p + 1);
        if 0 <= p && p + |search| <= |s| - 1 {
          assert s[1..][p..p + |search|] == s[p + 1..p + 1 + |search|];
        }
      }
      StrReplaceAbsent(search, subst, s[1..]);
    }
  }

  /** Replacing a string by itself changes nothing. */
  lemma {:induction false} StrReplaceSelf(search: string, s: string)
    ensures StrReplace(search, search, s) == s
    decreases |s|
  {
    if |search| == 0 || |s| < |search| {
    } else if s[..|search|] == search {
      StrReplaceSelf(search, s[|search|..]);
      assert s == s[..|search|] + s[|search|..];
    } else {
      StrReplaceSelf(search, s[1..]);
      assert s == [s[0]] + s[1..];
    }
  }

  /** No occurrence of `search` in `u + v` straddles the boundary between `u` and `v`. */
  predicate NoStraddle(search: string, u: string, v: string) {
    forall p :: 0 <= p < |u| < p + |search| <= |u| + |v| ==> !OccursAt(search, u + v, p)
  }

  /** The replacement of a concatenation splits where no occurrence straddles the cut. */
  lemma {:induction false} StrReplaceSplit(search: string, subst: string, u: string, v: string)
    requires NoStraddle(search, u, v)
    ensures StrReplace(search, subst, u + v) == StrReplace(search, subst, u) + StrReplace(search, subst, v)
    decreases |u|, 1
  {
    var s := u + v;
    if |u| == 0 {
      assert s == v;
    } else if |search| == 0 {
    } else if |s| < |search| {
      StrReplaceShort(search, subst, u);
      StrReplaceShort(search, subst, v);
    } else if s[..|search|] == search {
      SplitAtMatch(search, subst, u, v);
    } else {
      SplitAtCopy(search, subst, u, v);
    }
  }

  lemma {:induction false} SplitAtMatch(search: string, subst: string, u: string, v: string)
    requires NoStraddle(search, u, v) && |u| > 0 && |search| > 0
    requires |u + v| >= |search| && (u + v)[..|search|] == search
    ensures StrReplace(search, subst, u + v) == StrReplace(search, subst, u) + StrReplace(search, subst, v)
    decreases |u|, 0
  {
    var s := u + v;
    assert !(0 < |u| < |search| <= |u| + |v|) by {
      assert OccursAt(search, s, 0);
    }
    assert u[..|search|] == search;
    var u' := u[|search|..];
    assert s[|search|..] == u' + v;
    forall p | 0 <= p < |u'| < p + |search| <= |u'| + |v|
      ensures !OccursAt(search, u' + v, p)
    {
      assert (u' + v)[p..p + |search|] == s[p + |search|..p + |search| + |search|];
      assert !OccursAt(search, s, p + |search|);
    }
    StrReplaceSplit(search, subst, u', v);
  }

  lemma {:induction false} SplitAtCopy(search: string, subst: string, u: string, v: string)
    requires NoStraddle(search, u, v) && |u| > 0 && |search| > 0
    requires |u + v| >= |search| && (u + v)[..|search|] != search
    ensures StrReplace(search, subst, u + v) == StrReplace(search, subst, u) + StrReplace(search, subst, v)
    decreases |u|, 0
  {
    var u' := u[1..];
    SeqDropFirst(u, v);
    if |u| < |search| {
      StrReplaceShort(search, subst, u);
      StrReplaceShort(search, subst, u');
    } else {
      SeqTakePrefix(u, v, |search|);
    }
    assert StrReplace(search, subst, u) == [u[0]] + StrReplace(search, subst, u');
    assert StrReplace(search, subst, u + v) == [u[0]] + StrReplace(search, subst, u' + v);
    NoStraddleShift(search, u, v);
    StrReplaceSplit(search, subst, u', v);
    SeqAssoc([u[0]], StrReplace(search, subst, u'), StrReplace(search, subst, v));
  }

  lemma StrReplaceShort(search: string, subst: string, s: string)
    requires |s| < |search|
    ensures StrReplace(search, subst, s) == s
  {
  }

  lemma NoStraddleShift(search: string, u: string, v: string)
    requires |u| > 0 && NoStraddle(search, u, v)
    ensures NoStraddle(search, u[1..], v)
  {
    var u' := u[1..];
    forall p | 0 <= p < |u'| < p + |search| <= |u'| + |v|
      ensures !OccursAt(search, u' + v, p)
    {
      assert (u' + v)[p..p + |search|] == (u + v)[p + 1..p + 1 + |search|];
      assert !OccursAt(search, u + v, p + 1);
    }
  }

  /* ---------------------------------------------------------------------- */
  /* strrpos()                                                              */
  /* ---------------------------------------------------------------------- */

  /** `strrpos($s, $c)`: the position of the last `c` in `s`, `None` for PHP's false. */
  function LastIndexOf(s: string, c: char): (r: Option<nat>)
    ensures r.Some? ==> r.value < |s| && s[r.value] == c
                        && forall j :: r.value < j < |s| ==> s[j] != c
    ensures r.None? ==> forall j :: 0 <= j < |s| ==> s[j] != c
  {
    if |s| == 0 then None
    else if s[|s| - 1] == c then Some(|s| - 1)
    else LastIndexOf(s[..|s| - 1], c)
  }

  /* ---------------------------------------------------------------------- */
  /* file() / fgets()                                                       */
  /* ---------------------------------------------------------------------- */

  /** One line as `fgets` returns it: non-empty, a newline at most as its last character. */
  predicate LineShaped(l: string) {
    |l| > 0 && forall i :: 0 <= i < |l| - 1 ==> l[i] != '\n'
  }

  /** Lines as `file()` returns them: every line but the last ends with its newline. */
  predicate WellFormedLines(ls: seq<string>) {
    && (forall i :: 0 <= i < |ls| ==> LineShaped(ls[i]))
    && (forall i :: 0 <= i < |ls| - 1 ==> ls[i][|ls[i]| - 1] == '\n')
  }

  /** The length of the first line of `c`, its newline included. */
  function LineLength(c: string): (n: nat)
    requires |c| > 0
    ensures 1 <= n <= |c|
    ensures forall i :: 0 <= i < n - 1 ==> c[i] != '\n'
    ensures n < |c| ==> c[n - 1] == '\n'
  {
    if c[0] == '\n' || |c| == 1 then 1 else 1 + LineLength(c[1..])
  }

  /** `file($path)`: the content cut after every newline, each line keeping its terminator. */
  function SplitLines(c: string): (ls: seq<string>)
    ensures Concat(ls) == c
    ensures WellFormedLines(ls)
    decreases |c|
  {
    if |c| == 0 then []
    else
      var n := LineLength(c);
      assert c == c[..n] + c[n..];
      [c[..n]] + SplitLines(c[n..])
  }

  /** Splitting well-formed lines after joining them gives the same lines back. */
  lemma {:induction false} SplitConcat(ls: seq<string>)
    requires WellFormedLines(ls)
    ensures SplitLines(Concat(ls)) == ls
  {
    if |ls| > 0 {
      var c := Concat(ls);
      var l := ls[0];
      assert c == l + Concat(ls[1..]);
      assert WellFormedLines(ls[1..]) by {
        forall i | 0 <= i < |ls[1..]| ensures LineShaped(ls[1..][i]) {
          assert ls[1..][i] == ls[i + 1];
        }
        forall i | 0 <= i < |ls[1..]| - 1 ensures ls[1..][i][|ls[1..][i]| - 1] == '\n' {
          assert ls[1..][i] == ls[i + 1];
        }
      }
      FirstLineLength(l, Concat(ls[1..]), |ls| == 1);
      assert c[..|l|] == l && c[|l|..] == Concat(ls[1..]);
      SplitConcat(ls[1..]);
    }
  }

  lemma FirstLineLength(l: string, rest: string, isLast: bool)
    requires LineShaped(l)
    requires !isLast ==> l[|l| - 1] == '\n'
    requires isLast ==> rest == ""
    ensures LineLength(l + rest) == |l|
    decreases |l|
  {
    var c := l + rest;
    if c[0] == '\n' || |c| == 1 {
    } else {
      assert (l + rest)[1..] == l[1..] + rest;
      FirstLineLength(l[1..], rest, isLast);
    }
  }
}

=== FILE: Upgrade.dfy ===
/**
 The `pod:upgrade` command (UpgradePodRepoCommand.php), an unfinished
 sibling of `pod:upload`: it commits what is uncommitted and locates the
 podspec, and stops there. Its commit runs `git add .` and `git commit` as
 one shell command whose exit code is never looked at.
 */
module UpgradeCommand {
  import opened Strings
  import opened Locator
  import opened Workflow

  /** `commitAllFiles`: unless forced the user edits the message; then the combined add-and-commit. */
  function CommitAllFiles(env: Env, st: State, force: bool, message: string): (r: State) {
    var (st1, msg) := if force then (st, message) else Ask(env, st, CommitMessage(message));
    RunCmd(env, st1, AddAllAndCommit(msg))
  }

  /**
   `checkForUncommitedChanges`: a non-zero diff exit code means changes. With
   changes they are committed when forced or when the user agrees; the value
   is false only when the user declines. Nothing here throws.
   */
  function CheckForUncommittedChanges(env: Env, st: State, force: bool): (r: (State, bool)) {
    var code := env.exitCode(|st.events|, DiffQuiet);
    var st1 := Log(st, Ran(DiffQuiet, code));
    if code != 0 && !force then
      var (st2, yes) := Confirm(env, st1, CommitChanges);
      if yes then (CommitAllFiles(env, st2, force, DefaultCommitMessage), true) else (st2, false)
    else if code != 0 then (CommitAllFiles(env, st1, force, DefaultCommitMessage), true)
    else (st1, true)
  }

  /** `modifyPodfileVersion` as far as it goes: locate the podspec, which throws when there is none. */
  function ModifyPodfileVersion(env: Env, st: State, path: string): (r: Step<()>) {
    match LastMatch(env.glob(PodspecPattern(path)))
    case None => Stop(st, NoPodspec(path))
    case Some(_) => Next(st, ())
  }

  /** `execute` as a step from an empty trace. */
  function ExecuteSteps(env: Env, opts: Options, files: map<string, string>): (r: Step<()>) {
    var st := State([], files);
    if PhpEmpty(opts.repo) then Stop(st, MissingRepo)
    else
      var path := WorkingPath(env, opts);
      var (st1, ok) := CheckForUncommittedChanges(env, st, opts.force);
      if !ok then Stop(st1, UncommittedChanges(path))
      else ModifyPodfileVersion(env, st1, path)
  }

  /** `execute` of `pod:upgrade`. */
  function Execute(env: Env, opts: Options, files: map<string, string>): (r: Run) {
    Finish(ExecuteSteps(env, opts, files))
  }

  /* ---------------------------------------------------------------------- */
  /* properties                                                             */
  /* ---------------------------------------------------------------------- */

  /** A stretch of the trace that leaves the files alone, fails no command, rewrites nothing and, when forced, asks nothing. */
  predicate Harmless(st: State, st': State, force: bool) {
    && Extends(st, st') && st'.files == st.files
    && AllSound(Since(st, st')) && NoRewrites(Since(st, st'))
    && (force ==> NoQuestions(Since(st, st')))
  }

  lemma HarmlessChain(st: State, mid: State, st': State, force: bool)
    requires Harmless(st, mid, force) && Harmless(mid, st', force)
    ensures Harmless(st, st', force)
    ensures Commands(Since(st, st')) == Commands(Since(st, mid)) + Commands(Since(mid, st'))
  {
    SinceChain(st, mid, st');
    TraceAppend(Since(st, mid), Since(mid, st'));
    CommandsAppend(Since(st, mid), Since(mid, st'));
  }

  /** The commit asks at most for the message and runs one unchecked command with the chosen message. */
  lemma CommitAllFilesSteps(env: Env, st: State, force: bool, message: string)
    ensures var st' := CommitAllFiles(env, st, force, message);
            && Harmless(st, st', force)
            && Commands(Since(st, st')) == [AddAllAndCommit(ChosenMessage(env, st, force, message))]
  {
    var (st1, msg) := if force then (st, message) else Ask(env, st, CommitMessage(message));
    var st' := CommitAllFiles(env, st, force, message);
    var last := Ran(AddAllAndCommit(msg), env.exitCode(|st1.events|, AddAllAndCommit(msg)));
    if force {
      assert Since(st, st') == [last];
    } else {
      var q := Answered(CommitMessage(message), msg);
      assert Since(st, st') == [q, last];
      assert [q, last][1..] == [last];
      assert [last][1..] == [];
    }
  }

  /** The diff is logged with its exit code, whatever that is. */
  lemma DiffSteps(env: Env, st: State, force: bool)
    ensures var st1 := Log(st, Ran(DiffQuiet, env.exitCode(|st.events|, DiffQuiet)));
            && Harmless(st, st1, force)
            && Commands(Since(st, st1)) == [DiffQuiet]
  {
    var e := Ran(DiffQuiet, env.exitCode(|st.events|, DiffQuiet));
    assert Since(st, Log(st, e)) == [e];
    assert [e][1..] == [];
  }

  /** The question about committing runs nothing. */
  lemma ConfirmSteps(env: Env, st: State)
    ensures var (st1, _) := Confirm(env, st, CommitChanges);
            && Harmless(st, st1, false)
            && Commands(Since(st, st1)) == []
  {
    var (st1, yes) := Confirm(env, st, CommitChanges);
    var q := Confirmed(CommitChanges, yes);
    assert Since(st, st1) == [q];
    assert [q][1..] == [];
  }

  /**
   The trace of the dirty-tree check: the diff first; then, with changes, the question
   unless forced, and the combined commit unless declined.
   */
  lemma CheckSteps(env: Env, st: State, force: bool)
    ensures var (st', ok) := CheckForUncommittedChanges(env, st, force);
            var n := |st.events|;
            var code := env.exitCode(n, DiffQuiet);
            && Harmless(st, st', force)
            && (!ok <==> code != 0 && !force && !env.confirm(n + 1, CommitChanges))
            && (code == 0 ==> Commands(Since(st, st')) == [DiffQuiet])
            && (code != 0 && force ==> Commands(Since(st, st')) == [DiffQuiet, AddAllAndCommit(DefaultCommitMessage)])
            && (code != 0 && !force ==>
                  Commands(Since(st, st')) == (if ok then [DiffQuiet, AddAllAndCommit(env.answer(n + 2, CommitMessage(DefaultCommitMessage)))]
                                               else [DiffQuiet]))
  {
    var code := env.exitCode(|st.events|, DiffQuiet);
    var st1 := Log(st, Ran(DiffQuiet, code));
    DiffSteps(env, st, force);
    if code != 0 && !force {
      var (st2, yes) := Confirm(env, st1, CommitChanges);
      ConfirmSteps(env, st1);
      HarmlessChain(st, st1, st2, force);
      if yes {
        var st' := CommitAllFiles(env, st2, force, DefaultCommitMessage);
        CommitAllFilesSteps(env, st2, force, DefaultCommitMessage);
        HarmlessChain(st, st2, st', force);
      }
    } else if code != 0 {
      CommitAllFilesSteps(env, st1, force, DefaultCommitMessage);
      HarmlessChain(st, st1, CommitAllFiles(env, st1, force, DefaultCommitMessage), force);
    }
  }

  /**
   The run succeeds exactly when a repository is named, the changes (if any)
   were committed, and the working path holds a podspec; otherwise it fails
   on the first of these that does not hold.
   */
  lemma ExecuteOutcome(env: Env, opts: Options, files: map<string, string>)
    ensures var run := Execute(env, opts, files);
            var path := WorkingPath(env, opts);
            var committed := env.exitCode(0, DiffQuiet) == 0 || opts.force || env.confirm(1, CommitChanges);
            var found := |env.glob(PodspecPattern(path))| > 0;
            && (run.outcome == Succeeded <==> !PhpEmpty(opts.repo) && committed && found)
            && (run.outcome == Failed(MissingRepo) <==> PhpEmpty(opts.repo))
            && (run.outcome == Failed(UncommittedChanges(path)) <==> !PhpEmpty(opts.repo) && !committed)
            && (run.outcome == Failed(NoPodspec(path)) <==> !PhpEmpty(opts.repo) && committed && !found)
  {
    if !PhpEmpty(opts.repo) {
      CheckSteps(env, State([], files), opts.force);
    }
  }

  /** The upgrade never touches a file, never fails on a command, and asks nothing when forced. */
  lemma ExecuteIsHarmless(env: Env, opts: Options, files: map<string, string>)
    ensures var run := Execute(env, opts, files);
            && run.files == files
            && AllSound(run.events) && NoRewrites(run.events)
            && (run.outcome.Failed? ==> !run.outcome.error.CommandFailed?)
            && (opts.force ==> NoQuestions(run.events))
  {
    var st := State([], files);
    if !PhpEmpty(opts.repo) {
      CheckSteps(env, st, opts.force);
      var (st1, ok) := CheckForUncommittedChanges(env, st, opts.force);
      assert Since(st, st1) == st1.events;
    }
  }

  /**
   The commands the upgrade runs: the diff, then at most the combined commit,
   with the default message when forced.
   */
  lemma ExecuteCommands(env: Env, opts: Options, files: map<string, string>)
    ensures var cs := Commands(Execute(env, opts, files).events);
            && (PhpEmpty(opts.repo) ==> cs == [])
            && (!PhpEmpty(opts.repo) ==> cs == [DiffQuiet] || (|cs| == 2 && cs[0] == DiffQuiet && cs[1].AddAllAndCommit?))
            && (!PhpEmpty(opts.repo) && opts.force && env.exitCode(0, DiffQuiet) != 0 ==>
                  cs == [DiffQuiet, AddAllAndCommit(DefaultCommitMessage)])
  {
    var st := State([], files);
    if !PhpEmpty(opts.repo) {
      CheckSteps(env, st, opts.force);
      var (st1, ok) := CheckForUncommittedChanges(env, st, opts.force);
      assert Since(st, st1) == st1.events;
    }
  }
}

=== FILE: Upload.dfy ===
/**
 The `pod:upload` command (UploadPodRepoCommand.php): commit what is
 uncommitted, bump the podspec's version, commit, tag and push it, then push
 the podspec to the private pod repository.
 */
module UploadCommand {
  import opened Strings
  import opened Version
  import opened Podspec
  import opened Locator
  import opened Workflow

  function CommitMessageFor(version: string): (r: string) {
    "Changed pod version to " + version
  }

  /** `commitAllFiles`: unless forced the user edits the message; `git add .` then `git commit`. */
  function CommitAllFiles(env: Env, st: State, force: bool, message: string): (r: Step<()>) {
    var (st1, msg) := if force then (st, message) else Ask(env, st, CommitMessage(message));
    RunBoth(env, st1, AddAll, Commit(msg))
  }

  /**
   `checkForUncommitedChanges`: a non-zero diff exit code means changes. With
   changes and force they are committed unasked; without force the user is
   offered the commit. The value is false only when the user declines.
   */
  function CheckForUncommittedChanges(env: Env, st: State, force: bool): (r: Step<bool>) {
    var code := env.exitCode(|st.events|, DiffQuiet);
    var st1 := Log(st, Ran(DiffQuiet, code));
    if code == 0 then Next(st1, true)
    else if force then Then(CommitAllFiles(env, st1, force, DefaultCommitMessage), true)
    else OfferCommit(env, st1)
  }

  /** The unforced branch of `checkForUncommitedChanges`: `git status`, then ask; commit on yes. */
  function OfferCommit(env: Env, st: State): (r: Step<bool>) {
    var r := RunChecked(env, st, Status);
    if r.Stop? then Pass(r)
    else
      var (st2, yes) := Confirm(env, r.st, CommitChanges);
      if yes then Then(CommitAllFiles(env, st2, false, DefaultCommitMessage), true)
      else Next(st2, false)
  }

  /** `gitPush`: when forced or confirmed, `git push` then `git push --tags`. */
  function GitPush(env: Env, st: State, force: bool): (r: Step<()>) {
    var (st1, go) := if force then (st, true) else Confirm(env, st, PushToRemote);
    if go then RunBoth(env, st1, Push, PushTags) else Next(st1, ())
  }

  /** `commitTagAndPushCurrentVersion` with `tagGitVersion`. */
  function CommitTagAndPush(env: Env, st: State, force: bool, version: string): (r: Step<()>) {
    var r := CommitAllFiles(env, st, force, CommitMessageFor(version));
    if r.Stop? then r
    else
      var t := RunChecked(env, r.st, Tag(version));
      if t.Stop? then t else GitPush(env, t.st, force)
  }

  /** The lines of the file at `path`; a path with no file reads as no lines. */
  function ReadLines(files: map<string, string>, path: string): (r: seq<string>) {
    if path in files then SplitLines(files[path]) else []
  }

  /** The podspec's version, with PHP's null read as "". */
  function CurrentVersion(files: map<string, string>, path: string): (v: string)
    ensures IsVersionChars(v)
  {
    ExtractVersion(ReadLines(files, path)).GetOr("")
  }

  /**
   `replaceVersionInPath`: a missing path throws; a rewrite that took effect
   replaces the file and is recorded; otherwise the file stays as it was and
   the step throws.
   */
  function ReplaceVersionInPath(st: State, oldVersion: string, newVersion: string, path: string): (r: Step<()>) {
    if path !in st.files then Stop(st, PathNotFound(path))
    else
      match ReplaceVersion(st.files[path], oldVersion, newVersion)
      case None => Stop(st, NotReplaced(oldVersion, newVersion, path))
      case Some(c) => Next(State(st.events + [Rewrote(path, oldVersion, newVersion)], st.files[path := c]), ())
  }

  /**
   The version the release will carry: the proposal when forced or confirmed,
   else the user's answer, where "exit" aborts.
   */
  function ChooseVersion(env: Env, st: State, force: bool, proposed: string): (r: Step<string>) {
    if force then Next(st, proposed)
    else
      var (st1, ok) := Confirm(env, st, ConfirmVersion(proposed));
      if ok then Next(st1, proposed)
      else
        var (st2, answer) := Ask(env, st1, EnterVersion);
        if answer == "exit" then Stop(st2, UserAborted) else Next(st2, answer)
  }

  /** The end of `modifyPodfileVersion`: validate, rewrite, then commit, tag and push. */
  function ApplyVersion(env: Env, st: State, force: bool, spec: string, current: string, next: string): (r: Step<()>) {
    if !CheckVersionNumber(next) then Stop(st, InvalidVersion(next))
    else
      var r := ReplaceVersionInPath(st, current, next, spec);
      if r.Stop? then r else CommitTagAndPush(env, r.st, force, next)
  }

  /** `modifyPodfileVersion`: locate the podspec, then bump its version. */
  function ModifyPodfileVersion(env: Env, st: State, force: bool, path: string): (r: Step<()>) {
    match FirstMatch(env.glob(PodspecPattern(path)))
    case None => Stop(st, NoPodspec(path))
    case Some(spec) => ModifyFound(env, st, force, spec)
  }

  /** `modifyPodfileVersion` once the podspec `spec` is found: read and bump its version, agree on it, apply it. */
  function ModifyFound(env: Env, st: State, force: bool, spec: string): (r: Step<()>) {
    var current := CurrentVersion(st.files, spec);
    var c := ChooseVersion(env, st, force, Increment(current));
    if c.Stop? then Pass(c)
    else ApplyVersion(env, c.st, force, spec, current, c.value)
  }

  /** `execute` as a step from an empty trace. */
  function ExecuteSteps(env: Env, opts: Options, files: map<string, string>): (r: Step<()>) {
    var st := State([], files);
    if PhpEmpty(opts.repo) then Stop(st, MissingRepo)
    else
      var path := WorkingPath(env, opts);
      var c := CheckForUncommittedChanges(env, st, opts.force);
      if c.Stop? then Pass(c)
      else if !c.value then Stop(c.st, UncommittedChanges(path))
      else Release(env, c.st, opts.force, path, opts.repo)
  }

  /** The part of `execute` after the dirty-tree check: bump the version, then `pod repo push` the podspec. */
  function Release(env: Env, st: State, force: bool, path: string, repo: string): (r: Step<()>) {
    var m := ModifyPodfileVersion(env, st, force, path);
    if m.Stop? then m
    else RunChecked(env, m.st, PodRepoPush(repo))
  }

  /** `execute` of `pod:upload`. */
  function Execute(env: Env, opts: Options, files: map<string, string>): (r: Run) {
    Finish(ExecuteSteps(env, opts, files))
  }

  /* ---------------------------------------------------------------------- */
  /* the steps                                                              */
  /* ---------------------------------------------------------------------- */

  /**
   `commitAllFiles` runs `git add .` then `git commit` with the chosen message,
   stopping on the first failure; the only question it puts is the message.
   */
  lemma CommitAllFilesPlain(env: Env, st: State, force: bool, message: string)
    ensures var r := CommitAllFiles(env, st, force, message);
            var msg := ChosenMessage(env, st, force, message);
            && Plain(st, r, force)
            && Commands(Since(st, r.st)) <= [AddAll, Commit(msg)]
            && (r.Next? ==> Commands(Since(st, r.st)) == [AddAll, Commit(msg)])
            && (r.Stop? ==> r.error.CommandFailed?)
            && (forall e | e in Since(st, r.st) && IsQuestion(e) :: e == Answered(CommitMessage(message), msg))
            && (!force ==> Since(st, r.st)[0] == Answered(CommitMessage(message), msg))
  {
    var (st1, msg) := if force then (st, message) else Ask(env, st, CommitMessage(message));
    RunBothPlain(env, st1, AddAll, Commit(msg), force);
    if !force {
      AfterQuestion(st, Answered(CommitMessage(message), msg), RunBoth(env, st1, AddAll, Commit(msg)));
    }
  }

  /**
   `gitPush`: either nothing is pushed, or the branch and then the tags;
   forced, always both; otherwise both exactly when the user said yes.
   */
  lemma GitPushPlain(env: Env, st: State, force: bool)
    ensures var r := GitPush(env, st, force);
            var yes := env.confirm(|st.events|, PushToRemote);
            && Plain(st, r, force)
            && (r.Stop? ==> r.error.CommandFailed?)
            && (r.Next? ==> Commands(Since(st, r.st)) == [] || Commands(Since(st, r.st)) == [Push, PushTags])
            && (r.Next? && force ==> Commands(Since(st, r.st)) == [Push, PushTags])
            && (r.Next? && !force ==> (Commands(Since(st, r.st)) == [Push, PushTags] <==> yes))
            && (!force ==> (Confirmed(PushToRemote, true) in Since(st, r.st) <==> yes))
  {
    var (st1, go) := if force then (st, true) else Confirm(env, st, PushToRemote);
    var r := GitPush(env, st, force);
    if go {
      RunBothPlain(env, st1, Push, PushTags, force);
      if !force {
        AfterQuestion(st, Confirmed(PushToRemote, go), r);
      }
    } else {
      assert Since(st, r.st) == [Confirmed(PushToRemote, false)];
      CommandsOfQuestion(Confirmed(PushToRemote, false));
    }
  }

  /**
   The events of the commit, tag and push part of a release of `version`:
   add, commit, tag, then the branch and tag pushes, which happen when forced
   and otherwise exactly when the user confirmed them; unforced, the commit
   carries the message the user gave.
   */
  predicate Pushed(es: seq<Event>, version: string, force: bool) {
    var cs := Commands(es);
    && (|cs| == 3 || |cs| == 5)
    && cs[0] == AddAll && cs[1].Commit? && cs[2] == Tag(version)
    && (|cs| == 5 ==> cs[3] == Push && cs[4] == PushTags)
    && (force ==> |cs| == 5 && cs[1] == Commit(CommitMessageFor(version)))
    && (!force ==> (|cs| == 5 <==> Confirmed(PushToRemote, true) in es))
    && (!force ==> Answered(CommitMessage(CommitMessageFor(version)), cs[1].message) in es)
  }

  /** Commit, tag, push, in that order, each only after the one before it succeeded. */
  lemma CommitTagAndPushPlain(env: Env, st: State, force: bool, version: string)
    ensures var r := CommitTagAndPush(env, st, force, version);
            && Plain(st, r, force)
            && (r.Stop? ==> r.error.CommandFailed?)
            && (r.Next? ==> Pushed(Since(st, r.st), version, force))
  {
    var r := CommitTagAndPush(env, st, force, version);
    CommitAllFilesPlain(env, st, force, CommitMessageFor(version));
    var r1 := CommitAllFiles(env, st, force, CommitMessageFor(version));
    if r1.Next? {
      RunCheckedPlain(env, r1.st, Tag(version), force);
      var t := RunChecked(env, r1.st, Tag(version));
      CommandsOfRun(Tag(version), env.exitCode(|r1.st.events|, Tag(version)));
      if t.Next? {
        GitPushPlain(env, t.st, force);
        var g := GitPush(env, t.st, force);
        assert r == g;
        PlainChain(r1.st, t.st, g, force);
        PlainChain(st, r1.st, g, force);
        if g.Next? {
          PushedParts(Since(st, r1.st), Since(r1.st, t.st), Since(t.st, g.st), version, force,
                      ChosenMessage(env, st, force, CommitMessageFor(version)), env.exitCode(|r1.st.events|, Tag(version)));
        }
      } else {
        assert r == t;
        PlainChain(st, r1.st, t, force);
      }
    }
  }

  /** The commit, the tag and the push, put together, make up a release's commit, tag and push. */
  lemma PushedParts(commit: seq<Event>, tag: seq<Event>, push: seq<Event>, version: string, force: bool, msg: string, code: int)
    requires Commands(commit) == [AddAll, Commit(msg)]
    requires forall e | e in commit && IsQuestion(e) :: e == Answered(CommitMessage(CommitMessageFor(version)), msg)
    requires force ==> msg == CommitMessageFor(version)
    requires !force ==> commit[0] == Answered(CommitMessage(CommitMessageFor(version)), msg)
    requires tag == [Ran(Tag(version), code)]
    requires Commands(push) == [] || Commands(push) == [Push, PushTags]
    requires force ==> Commands(push) == [Push, PushTags]
    requires !force ==> (Commands(push) == [Push, PushTags] <==> Confirmed(PushToRemote, true) in push)
    ensures Pushed(commit + (tag + push), version, force)
  {
    CommandsOfRun(Tag(version), code);
    CommandsAppend(tag, push);
    CommandsAppend(commit, tag + push);
    var es := commit + (tag + push);
    var cs := Commands(es);
    assert cs == [AddAll, Commit(msg)] + ([Tag(version)] + Commands(push));
    assert !(Confirmed(PushToRemote, true) in commit);
    assert !(Confirmed(PushToRemote, true) in tag);
    assert Confirmed(PushToRemote, true) in es <==> Confirmed(PushToRemote, true) in push;
    if !force {
      assert es[0] == commit[0];
    }
  }

  /** Offering the commit: status, one question, then possibly the commit; false exactly when declined. */
  lemma OfferCommitPlain(env: Env, st: State)
    ensures var r := OfferCommit(env, st);
            var n := |st.events|;
            && Plain(st, r, false)
            && (r.Stop? ==> r.error.CommandFailed?)
            && ((r.Next? && !r.value) <==> env.exitCode(n, Status) <= 0 && !env.confirm(n + 1, CommitChanges))
            && (r.Next? && !r.value ==>
                  Since(st, r.st) == [Ran(Status, env.exitCode(n, Status)), Confirmed(CommitChanges, false)])
  {
    RunCheckedPlain(env, st, Status, false);
    var r1 := RunChecked(env, st, Status);
    var r := OfferCommit(env, st);
    if r1.Stop? {
      PassPlain<bool, ()>(st, r1, false);
    } else {
      var (st2, yes) := Confirm(env, r1.st, CommitChanges);
      assert Since(r1.st, st2) == [Confirmed(CommitChanges, yes)];
      if yes {
        CommitAllFilesPlain(env, st2, false, DefaultCommitMessage);
        ThenPlain(st2, CommitAllFiles(env, st2, false, DefaultCommitMessage), true, false);
        QuestionsChain(r1.st, st2, r);
      } else {
        assert r == Next(st2, false);
        assert Plain(r1.st, r, false);
      }
      PlainChain(st, r1.st, r, false);
    }
  }

  /** Offering the commit runs `git status`, then, on yes, `git add .` and `git commit` with the message the user typed. */
  lemma OfferCommitCommands(env: Env, st: State)
    ensures var r := OfferCommit(env, st);
            var n := |st.events|;
            var commit := [Status, AddAll, Commit(env.answer(n + 2, CommitMessage(DefaultCommitMessage)))];
            && Extends(st, r.st)
            && Commands(Since(st, r.st)) <= commit
            && (r.Next? && r.value ==> env.confirm(n + 1, CommitChanges) && Commands(Since(st, r.st)) == commit)
  {
    var n := |st.events|;
    var r := OfferCommit(env, st);
    var r1 := RunChecked(env, st, Status);
    var s0 := [Ran(Status, env.exitCode(n, Status))];
    CommandsOfRun(Status, env.exitCode(n, Status));
    assert Since(st, r1.st) == s0;
    if r1.Next? {
      var (st2, yes) := Confirm(env, r1.st, CommitChanges);
      var q := Confirmed(CommitChanges, yes);
      assert Since(r1.st, st2) == [q];
      CommandsOfQuestion(q);
      SinceChain(st, r1.st, st2);
      CommandsAppend(s0, [q]);
      if yes {
        CommitAllFilesPlain(env, st2, false, DefaultCommitMessage);
        var c := CommitAllFiles(env, st2, false, DefaultCommitMessage);
        assert |st2.events| == n + 2;
        var msg := env.answer(n + 2, CommitMessage(DefaultCommitMessage));
        assert ChosenMessage(env, st2, false, DefaultCommitMessage) == msg;
        assert r.st == c.st;
        SinceChain(st, st2, c.st);
        CommandsAppend(Since(st, st2), Since(st2, c.st));
        PrefixPrepend([Status], Commands(Since(st2, c.st)), [AddAll, Commit(msg)]);
      } else {
        assert r.st == st2;
      }
    }
  }

  /** `checkForUncommitedChanges` runs the diff first, then acts as its exit code and the user decide. */
  lemma CheckPlain(env: Env, st: State, force: bool)
    ensures var r := CheckForUncommittedChanges(env, st, force);
            var n := |st.events|;
            var code := env.exitCode(n, DiffQuiet);
            && Plain(st, r, force)
            && |Since(st, r.st)| > 0 && Since(st, r.st)[0] == Ran(DiffQuiet, code)
            && (r.Stop? ==> r.error.CommandFailed?)
            && (code == 0 ==> r == Next(Log(st, Ran(DiffQuiet, code)), true))
            && ((r.Next? && !r.value)
                <==> code != 0 && !force && env.exitCode(n + 1, Status) <= 0 && !env.confirm(n + 2, CommitChanges))
            && (r.Next? && !r.value ==>
                  Since(st, r.st) == [Ran(DiffQuiet, code), Ran(Status, env.exitCode(n + 1, Status)), Confirmed(CommitChanges, false)])
  {
    var code := env.exitCode(|st.events|, DiffQuiet);
    var st1 := Log(st, Ran(DiffQuiet, code));
    var r := CheckForUncommittedChanges(env, st, force);
    assert Since(st, st1) == [Ran(DiffQuiet, code)];
    if code == 0 {
      assert Since(st1, r.st) == [];
    } else if force {
      CommitAllFilesPlain(env, st1, force, DefaultCommitMessage);
      ThenPlain(st1, CommitAllFiles(env, st1, force, DefaultCommitMessage), true, force);
    } else {
      OfferCommitPlain(env, st1);
    }
    PlainChain(st, st1, r, force);
  }

  /**
   With changes and force, `git add .` and `git commit` with the default
   message follow the diff; without force, `git status` and, on yes, the
   commit with the message the user typed.
   */
  lemma CheckCommands(env: Env, st: State, force: bool)
    ensures var r := CheckForUncommittedChanges(env, st, force);
            var n := |st.events|;
            var code := env.exitCode(n, DiffQuiet);
            var commit := [DiffQuiet] + (if force then [AddAll, Commit(DefaultCommitMessage)]
                                         else [Status, AddAll, Commit(env.answer(n + 3, CommitMessage(DefaultCommitMessage)))]);
            && Extends(st, r.st)
            && (code != 0 ==> Commands(Since(st, r.st)) <= commit)
            && (code != 0 && r.Next? && r.value ==>
                  && (!force ==> env.confirm(n + 2, CommitChanges))
                  && Commands(Since(st, r.st)) == commit)
            && (code != 0 && force && r.Next? ==> r.value)
  {
    var n := |st.events|;
    var code := env.exitCode(n, DiffQuiet);
    var st1 := Log(st, Ran(DiffQuiet, code));
    var r := CheckForUncommittedChanges(env, st, force);
    assert Since(st, st1) == [Ran(DiffQuiet, code)];
    CommandsOfRun(DiffQuiet, code);
    if code != 0 {
      var tail: seq<Cmd>;
      if force {
        CommitAllFilesPlain(env, st1, force, DefaultCommitMessage);
        tail := [AddAll, Commit(DefaultCommitMessage)];
      } else {
        OfferCommitCommands(env, st1);
        assert |st1.events| + 2 == n + 3;
        tail := [Status, AddAll, Commit(env.answer(|st1.events| + 2, CommitMessage(DefaultCommitMessage)))];
        assert tail == [Status, AddAll, Commit(env.answer(n + 3, CommitMessage(DefaultCommitMessage)))];
      }
      SinceChain(st, st1, r.st);
      CommandsAppend(Since(st, st1), Since(st1, r.st));
      PrefixPrepend([DiffQuiet], Commands(Since(st1, r.st)), tail);
    }
  }

  /** The user approved version `v` somewhere in `es`: confirmed it as proposed, or typed it. */
  predicate Approved(es: seq<Event>, v: string) {
    exists j :: 0 <= j < |es| && (es[j] == Confirmed(ConfirmVersion(v), true) || es[j] == Answered(EnterVersion, v))
  }

  /**
   Unforced, the proposal goes on when the user confirms it; otherwise the
   typed answer goes on, and only "exit" stops the step.
   */
  lemma ChooseVersionAnswers(env: Env, st: State, force: bool, proposed: string)
    ensures var r := ChooseVersion(env, st, force, proposed);
            var n := |st.events|;
            var yes := env.confirm(n, ConfirmVersion(proposed));
            var typed := env.answer(n + 1, EnterVersion);
            && (!force ==> (r.Stop? <==> !yes && typed == "exit"))
            && (!force && yes ==> r.Next? && r.value == proposed)
            && (!force && !yes && typed != "exit" ==> r.Next? && r.value == typed)
  {
    var (st1, ok) := Confirm(env, st, ConfirmVersion(proposed));
    assert |st1.events| == |st.events| + 1;
  }

  /** Choosing the version only asks; forced, it takes the proposal; otherwise the user approved the result. */
  lemma ChooseVersionPlain(env: Env, st: State, force: bool, proposed: string)
    ensures var r := ChooseVersion(env, st, force, proposed);
            && Plain(st, r, force)
            && Commands(Since(st, r.st)) == []
            && (force ==> r == Next(st, proposed))
            && (r.Next? && !force ==> Approved(Since(st, r.st), r.value))
            && (r.Stop? ==> r.error == UserAborted)
  {
    var r := ChooseVersion(env, st, force, proposed);
    if force {
      assert Since(st, r.st) == [];
    } else {
      var (st1, ok) := Confirm(env, st, ConfirmVersion(proposed));
      if ok {
        assert Since(st, r.st) == [Confirmed(ConfirmVersion(proposed), true)];
        CommandsOfQuestion(Confirmed(ConfirmVersion(proposed), true));
      } else {
        var (st2, answer) := Ask(env, st1, EnterVersion);
        var d := [Confirmed(ConfirmVersion(proposed), false), Answered(EnterVersion, answer)];
        assert Since(st, r.st) == d;
        assert d == [d[0]] + [d[1]];
        CommandsOfQuestion(d[0]);
        CommandsOfQuestion(d[1]);
        CommandsAppend([d[0]], [d[1]]);
        assert r.Next? ==> d[1] == Answered(EnterVersion, r.value);
      }
    }
  }

  /** The podspec at `e.path` was rewritten by `replaceVersionInPath` to a valid version, turning `files` into `files'`. */
  predicate RewriteApplied(files: map<string, string>, e: Event, files': map<string, string>) {
    && e.Rewrote?
    && e.path in files && e.path in files'
    && ReplaceVersion(files[e.path], e.oldVersion, e.newVersion) == Some(files'[e.path])
    && files' == files[e.path := files'[e.path]]
    && CheckVersionNumber(e.newVersion)
  }

  /** The exceptions that the steps after the dirty-tree check can throw. */
  predicate ReleaseError(e: Error) {
    e.NoPodspec? || e.UserAborted? || e.InvalidVersion? || e.PathNotFound? || e.NotReplaced? || e.CommandFailed?
  }

  /** `replaceVersionInPath` either records exactly one applied rewrite or leaves state and files as they were. */
  lemma ReplaceVersionInPathSteps(st: State, oldVersion: string, newVersion: string, path: string)
    requires CheckVersionNumber(newVersion)
    ensures var r := ReplaceVersionInPath(st, oldVersion, newVersion, path);
            && Extends(st, r.st)
            && (r.Stop? ==> r.st == st && !r.error.CommandFailed?)
            && (r.Next? ==>
                  && Since(st, r.st) == [Rewrote(path, oldVersion, newVersion)]
                  && RewriteApplied(st.files, Rewrote(path, oldVersion, newVersion), r.st.files))
  {
    var r := ReplaceVersionInPath(st, oldVersion, newVersion, path);
    if r.Next? {
      assert Since(st, r.st) == [Rewrote(path, oldVersion, newVersion)];
    }
  }

  /**
   Validation comes before the rewrite, and the rewrite before any command:
   either nothing was recorded and the files are as they were, or the trace
   starts with the rewrite, followed by commit, tag and push.
   */
  lemma ApplyVersionSteps(env: Env, st: State, force: bool, spec: string, current: string, next: string)
    ensures var r := ApplyVersion(env, st, force, spec, current, next);
            && Keeps(st, r)
            && var d := Since(st, r.st);
            && (force ==> NoQuestions(d))
            && (|d| == 0 ==> r.Stop? && !r.error.CommandFailed? && r.st.files == st.files)
            && (|d| > 0 ==>
                  && d[0] == Rewrote(spec, current, next)
                  && RewriteApplied(st.files, d[0], r.st.files)
                  && NoRewrites(d[1..])
                  && (r.Stop? ==> r.error.CommandFailed?)
                  && (r.Next? ==> Pushed(d[1..], next, force)))
  {
    var r := ApplyVersion(env, st, force, spec, current, next);
    if CheckVersionNumber(next) {
      ReplaceVersionInPathSteps(st, current, next, spec);
      var rp := ReplaceVersionInPath(st, current, next, spec);
      if rp.Next? {
        CommitTagAndPushPlain(env, rp.st, force, next);
        assert r == CommitTagAndPush(env, rp.st, force, next);
        RewriteChain(st, rp.st, r, force);
      } else {
        assert r == rp;
        assert Since(st, r.st) == [];
      }
    } else {
      assert Since(st, r.st) == [];
    }
  }

  /** The trace `d` holds the rewrite `e` at `k`, and what the trace shows around it. */
  predicate RewroteAt(d: seq<Event>, k: int, e: Event, files: map<string, string>, files': map<string, string>, force: bool) {
    && 0 <= k < |d| && d[k] == e
    && RewriteApplied(files, e, files')
    && NoRewrites(d[..k]) && NoRewrites(d[k + 1..])
    && e.oldVersion == CurrentVersion(files, e.path)
    && (force ==> e.newVersion == Increment(e.oldVersion))
    && (!force ==> Approved(d[..k], e.newVersion))
  }

  /**
   What bumping the version leaves behind it: with `k < 0` a stop that ran no
   command and changed no file; otherwise the rewrite `e` at `k`, after the
   questions only, followed by commit, tag and push when the step went on.
   */
  predicate BumpTrace(st: State, r: Step<()>, force: bool, k: int, e: Event) {
    && Keeps(st, r)
    && var d := Since(st, r.st);
    && (force ==> NoQuestions(d))
    && (k < 0 ==>
          && r.Stop? && !r.error.CommandFailed?
          && r.st.files == st.files && NoRewrites(d) && Commands(d) == [])
    && (k >= 0 ==>
          && RewroteAt(d, k, e, st.files, r.st.files, force)
          && Commands(d[..k]) == [] && (force ==> k == 0)
          && (r.Stop? ==> r.error.CommandFailed?)
          && (r.Next? ==> Pushed(d[k + 1..], e.newVersion, force)))
  }

  lemma BumpTraceSame(st: State, r: Step<()>, r': Step<()>, force: bool, k: int, e: Event)
    requires BumpTrace(st, r, force, k, e) && r' == r
    ensures BumpTrace(st, r', force, k, e)
  {
  }

  /** With the podspec found: nothing is rewritten unless a version was agreed and validated, and then `spec` is. */
  lemma ModifyFoundSteps(env: Env, st: State, force: bool, spec: string) returns (k: int, e: Event)
    ensures BumpTrace(st, ModifyFound(env, st, force, spec), force, k, e)
    ensures k >= 0 ==> e.path == spec
  {
    var current := CurrentVersion(st.files, spec);
    ChooseVersionPlain(env, st, force, Increment(current));
    var c := ChooseVersion(env, st, force, Increment(current));
    var r := ModifyFound(env, st, force, spec);
    if c.Stop? {
      k, e := -1, Rewrote(spec, current, current);
      assert r == Pass(c);
    } else {
      k, e := AfterChoice(env, st, force, spec, current, c);
      BumpTraceSame(st, ApplyVersion(env, c.st, force, spec, current, c.value), r, force, k, e);
    }
  }

  /** The steps after the version was agreed: the rewrite, if any, comes right after the questions. */
  lemma AfterChoice(env: Env, st: State, force: bool, spec: string, current: string, c: Step<string>) returns (k: int, e: Event)
    requires current == CurrentVersion(st.files, spec)
    requires c == ChooseVersion(env, st, force, Increment(current)) && c.Next?
    requires Plain(st, c, force) && Commands(Since(st, c.st)) == []
    requires force ==> c == Next(st, Increment(current))
    requires !force ==> Approved(Since(st, c.st), c.value)
    ensures BumpTrace(st, ApplyVersion(env, c.st, force, spec, current, c.value), force, k, e)
    ensures k >= 0 ==> e.path == spec
  {
    ApplyVersionSteps(env, c.st, force, spec, current, c.value);
    var r := ApplyVersion(env, c.st, force, spec, current, c.value);
    KeepsChain(st, c.st, r);
    var a := Since(st, c.st);
    var b := Since(c.st, r.st);
    TraceAppend(a, b);
    e := Rewrote(spec, current, c.value);
    if |b| == 0 {
      assert a + b == a;
      k := -1;
    } else {
      if force {
        assert a == [];
      }
      RewriteAfterQuestions(a, b, e, st.files, r.st.files, force);
      k := |a|;
    }
  }

  /** A rewrite that directly follows command-free, rewrite-free questions sits at their length. */
  lemma RewriteAfterQuestions(a: seq<Event>, b: seq<Event>, e: Event, files: map<string, string>, files': map<string, string>, force: bool)
    requires NoRewrites(a) && Commands(a) == []
    requires |b| > 0 && b[0] == e && RewriteApplied(files, e, files') && NoRewrites(b[1..])
    requires e.oldVersion == CurrentVersion(files, e.path)
    requires force ==> e.newVersion == Increment(e.oldVersion)
    requires !force ==> Approved(a, e.newVersion)
    ensures RewroteAt(a + b, |a|, e, files, files', force)
    ensures (a + b)[..|a|] == a && (a + b)[|a| + 1..] == b[1..]
  {
    SlicePrepend(a, b, 0, |a|);
    assert b[..0] == [];
    assert a + [] == a;
  }

  /**
   `modifyPodfileVersion`: with no podspec it throws before anything else; if
   the podspec is rewritten, it is the first one found.
   */
  lemma ModifySteps(env: Env, st: State, force: bool, path: string) returns (k: int, e: Event)
    ensures BumpTrace(st, ModifyPodfileVersion(env, st, force, path), force, k, e)
    ensures FirstMatch(env.glob(PodspecPattern(path))).None? ==> ModifyPodfileVersion(env, st, force, path) == Stop(st, NoPodspec(path))
    ensures k >= 0 ==> FirstMatch(env.glob(PodspecPattern(path))) == Some(e.path)
  {
    match FirstMatch(env.glob(PodspecPattern(path)))
    case None =>
      var r := ModifyPodfileVersion(env, st, force, path);
      assert Since(st, r.st) == [];
      k, e := -1, Rewrote(path, "", "");
    case Some(spec) =>
      k, e := ModifyFoundSteps(env, st, force, spec);
      BumpTraceSame(st, ModifyFound(env, st, force, spec), ModifyPodfileVersion(env, st, force, path), force, k, e);
  }

  /** The events after the rewrite of a complete release: commit, tag, push, then the pod repository push last. */
  predicate Released(es: seq<Event>, version: string, force: bool, repo: string) {
    && |es| > 0 && es[|es| - 1].Ran? && es[|es| - 1].cmd == PodRepoPush(repo)
    && Pushed(es[..|es| - 1], version, force)
  }

  /** What follows index `k` of the trace is a complete release of `version`. */
  predicate ReleasedAfter(d: seq<Event>, k: int, version: string, force: bool, repo: string) {
    0 <= k < |d| && Released(d[k + 1..], version, force, repo)
  }

  lemma ReleasedAfterShift(a: seq<Event>, b: seq<Event>, k: int, j: int, version: string, force: bool, repo: string)
    requires j == |a| + k && ReleasedAfter(b, k, version, force, repo)
    ensures ReleasedAfter(a + b, j, version, force, repo)
  {
    SlicePrepend(a, b, k, j);
  }

  /** After the dirty-tree check: the pod repository push happens only after a complete, committed, tagged rewrite. */
  lemma ReleaseSteps(env: Env, st: State, force: bool, path: string, repo: string) returns (k: int, e: Event)
    ensures var r := Release(env, st, force, path, repo);
            && Keeps(st, r)
            && var d := Since(st, r.st);
            && (force ==> NoQuestions(d))
            && (k < 0 ==> r.Stop? && !r.error.CommandFailed? && r.st.files == st.files && NoRewrites(d))
            && (k >= 0 ==>
                  && RewroteAt(d, k, e, st.files, r.st.files, force)
                  && Commands(d[..k]) == [] && (force ==> k == 0)
                  && (r.Stop? ==> r.error.CommandFailed?)
                  && FirstMatch(env.glob(PodspecPattern(path))) == Some(e.path))
            && (r.Next? ==> k >= 0 && ReleasedAfter(d, k, e.newVersion, force, repo))
  {
    var r := Release(env, st, force, path, repo);
    k, e := ModifySteps(env, st, force, path);
    var m := ModifyPodfileVersion(env, st, force, path);
    if m.Next? {
      RunCheckedPlain(env, m.st, PodRepoPush(repo), force);
      KeepsChain(st, m.st, r);
      var a := Since(st, m.st);
      var b := Since(m.st, r.st);
      TraceAppend(a, b);
      var code := env.exitCode(|m.st.events|, PodRepoPush(repo));
      assert NoRewrites(b);
      ExtendAfterRewrite(a, b, k, e, st.files, r.st.files, force);
      if r.Next? {
        PushedThenPodRepoPush(a, k, e.newVersion, force, repo, code);
      }
    }
  }

  /** A committed, tagged and pushed rewrite at `k`, then the pod repository push, is a complete release. */
  lemma PushedThenPodRepoPush(a: seq<Event>, k: int, version: string, force: bool, repo: string, code: int)
    requires 0 <= k < |a| && Pushed(a[k + 1..], version, force)
    ensures ReleasedAfter(a + [Ran(PodRepoPush(repo), code)], k, version, force, repo)
  {
    var t := a + [Ran(PodRepoPush(repo), code)];
    var tail := t[k + 1..];
    assert tail == a[k + 1..] + [Ran(PodRepoPush(repo), code)];
    assert tail[..|tail| - 1] == a[k + 1..];
  }

  /** Rewrite-free events after a trace keep its rewrite where it was. */
  lemma ExtendAfterRewrite(a: seq<Event>, b: seq<Event>, k: int, e: Event, files: map<string, string>, files': map<string, string>, force: bool)
    requires RewroteAt(a, k, e, files, files', force) && NoRewrites(b)
    ensures RewroteAt(a + b, k, e, files, files', force)
    ensures (a + b)[..k] == a[..k] && (a + b)[k + 1..] == a[k + 1..] + b
  {
    SliceAppend(a, b, k);
    TraceAppend(a[k + 1..], b);
  }

  /** Rewrite-free events before a trace move its rewrite, and the release after it, by their number. */
  lemma PrependToRelease(a: seq<Event>, b: seq<Event>, es: seq<Event>, k: int, j: int, e: Event, files: map<string, string>, files': map<string, string>, force: bool, repo: string, released: bool)
    requires es == a + b && j == |a| + k && NoRewrites(a) && RewroteAt(b, k, e, files, files', force)
    requires released ==> ReleasedAfter(b, k, e.newVersion, force, repo)
    ensures RewroteAt(es, j, e, files, files', force)
    ensures released ==> ReleasedAfter(es, j, e.newVersion, force, repo)
  {
    ExtendBeforeRewrite(a, b, k, j, e, files, files', force);
    if released {
      ReleasedAfterShift(a, b, k, j, e.newVersion, force, repo);
    }
  }

  /** Rewrite-free events before a trace move its rewrite by their number. */
  lemma ExtendBeforeRewrite(a: seq<Event>, b: seq<Event>, k: int, j: int, e: Event, files: map<string, string>, files': map<string, string>, force: bool)
    requires j == |a| + k && RewroteAt(b, k, e, files, files', force) && NoRewrites(a)
    ensures RewroteAt(a + b, j, e, files, files', force)
  {
    SlicePrepend(a, b, k, j);
    TraceAppend(a, b[..k]);
    if !force {
      ApprovedAfter(a, b[..k], e.newVersion);
    }
  }

  /** An approval stays in the trace when events are put in front of it. */
  lemma ApprovedAfter(a: seq<Event>, c: seq<Event>, v: string)
    requires Approved(c, v)
    ensures Approved(a + c, v)
  {
    var j :| 0 <= j < |c| && (c[j] == Confirmed(ConfirmVersion(v), true) || c[j] == Answered(EnterVersion, v));
    assert (a + c)[|a| + j] == c[j];
  }

  /* Which exceptions each step can throw. */

  lemma ApplyVersionErrors(env: Env, st: State, force: bool, spec: string, current: string, next: string)
    ensures var r := ApplyVersion(env, st, force, spec, current, next); r.Stop? ==> ReleaseError(r.error)
  {
    if CheckVersionNumber(next) {
      var rp := ReplaceVersionInPath(st, current, next, spec);
      if rp.Next? {
        CommitTagAndPushPlain(env, rp.st, force, next);
      }
    }
  }

  lemma ModifyErrors(env: Env, st: State, force: bool, path: string)
    ensures var r := ModifyPodfileVersion(env, st, force, path); r.Stop? ==> ReleaseError(r.error)
  {
    match FirstMatch(env.glob(PodspecPattern(path)))
    case None =>
    case Some(spec) =>
      var current := CurrentVersion(st.files, spec);
      ChooseVersionPlain(env, st, force, Increment(current));
      var c := ChooseVersion(env, st, force, Increment(current));
      if c.Next? {
        ApplyVersionErrors(env, c.st, force, spec, current, c.value);
      }
  }

  /** Past the dirty-tree check, neither a missing repository nor declined changes can be the reason to stop. */
  lemma ReleaseErrors(env: Env, st: State, force: bool, path: string, repo: string)
    ensures var r := Release(env, st, force, path, repo); r.Stop? ==> ReleaseError(r.error)
  {
    ModifyErrors(env, st, force, path);
  }

  /* ---------------------------------------------------------------------- */
  /* the whole run                                                          */
  /* ---------------------------------------------------------------------- */

  /**
   The trace of `execute`: it fails fast, asks nothing when forced, rewrites
   at most the first podspec found in the working path, and only a complete
   rewrite with commit, tag and push is followed by the pod repository push.
   */
  lemma ExecuteTrace(env: Env, opts: Options, files: map<string, string>) returns (k: int, e: Event)
    ensures var r := ExecuteSteps(env, opts, files);
            var es := r.st.events;
            && Keeps(State([], files), r)
            && (opts.force ==> NoQuestions(es))
            && (k < 0 ==> r.Stop? && r.st.files == files && NoRewrites(es))
            && (k >= 0 ==>
                  && RewroteAt(es, k, e, files, r.st.files, opts.force)
                  && (r.Stop? ==> r.error.CommandFailed?)
                  && FirstMatch(env.glob(PodspecPattern(WorkingPath(env, opts)))) == Some(e.path))
            && (r.Next? ==> k >= 0 && ReleasedAfter(es, k, e.newVersion, opts.force, opts.repo))
  {
    var st := State([], files);
    var r := ExecuteSteps(env, opts, files);
    e := Rewrote("", "", "");
    if PhpEmpty(opts.repo) {
      k := -1;
    } else {
      CheckPlain(env, st, opts.force);
      var c := CheckForUncommittedChanges(env, st, opts.force);
      if c.Stop? || !c.value {
        assert r.st == c.st && r.Stop?;
        assert Since(st, r.st) == r.st.events;
        k := -1;
      } else {
        assert r == Release(env, c.st, opts.force, WorkingPath(env, opts), opts.repo);
        k, e := AfterCheck(env, st, c.st, opts.force, WorkingPath(env, opts), opts.repo);
      }
    }
  }

  /** The release steps after a check that went on, seen from the start of the run. */
  lemma AfterCheck(env: Env, st: State, mid: State, force: bool, path: string, repo: string) returns (k: int, e: Event)
    requires st.events == [] && Extends(st, mid) && AllSound(Since(st, mid)) && NoRewrites(Since(st, mid))
    requires force ==> NoQuestions(Since(st, mid))
    requires mid.files == st.files
    ensures var r := Release(env, mid, force, path, repo);
            var es := r.st.events;
            && Keeps(st, r)
            && (force ==> NoQuestions(es))
            && (k < 0 ==> r.Stop? && r.st.files == st.files && NoRewrites(es))
            && (k >= 0 ==>
                  && RewroteAt(es, k, e, st.files, r.st.files, force)
                  && (r.Stop? ==> r.error.CommandFailed?)
                  && FirstMatch(env.glob(PodspecPattern(path))) == Some(e.path))
            && (r.Next? ==> k >= 0 && ReleasedAfter(es, k, e.newVersion, force, repo))
  {
    var kr;
    kr, e := ReleaseSteps(env, mid, force, path, repo);
    k := FromStart(st, mid, Release(env, mid, force, path, repo), kr, e, force, repo);
  }

  /** A step's rewrite and release, moved from the trace it appended to the trace of the whole run. */
  lemma FromStart<T>(st: State, mid: State, r: Step<T>, kr: int, e: Event, force: bool, repo: string) returns (k: int)
    requires st.events == [] && Extends(st, mid) && AllSound(Since(st, mid)) && NoRewrites(Since(st, mid))
    requires force ==> NoQuestions(Since(st, mid))
    requires mid.files == st.files
    requires Keeps(mid, r)
    requires var d := Since(mid, r.st);
             && (force ==> NoQuestions(d))
             && (kr < 0 ==> r.Stop? && r.st.files == mid.files && NoRewrites(d))
             && (kr >= 0 ==> RewroteAt(d, kr, e, mid.files, r.st.files, force) && (r.Stop? ==> r.error.CommandFailed?))
             && (r.Next? ==> kr >= 0 && ReleasedAfter(d, kr, e.newVersion, force, repo))
    ensures k < 0 <==> kr < 0
    ensures var es := r.st.events;
            && Keeps(st, r)
            && (force ==> NoQuestions(es))
            && (k < 0 ==> r.Stop? && r.st.files == st.files && NoRewrites(es))
            && (k >= 0 ==> RewroteAt(es, k, e, st.files, r.st.files, force) && (r.Stop? ==> r.error.CommandFailed?))
            && (r.Next? ==> k >= 0 && ReleasedAfter(es, k, e.newVersion, force, repo))
  {
    KeepsChain(st, mid, r);
    var a := Since(st, mid);
    var b := Since(mid, r.st);
    SinceStart(st, mid, r.st);
    TraceAppend(a, b);
    if kr < 0 {
      k := -1;
    } else {
      k := |a| + kr;
      PrependToRelease(a, b, r.st.events, kr, k, e, st.files, r.st.files, force, repo, r.Next?);
    }
  }

  /** A command with a positive exit code ends the run and is the reason it failed. */
  lemma ExecuteFailsFast(env: Env, opts: Options, files: map<string, string>)
    ensures var run := Execute(env, opts, files);
            FailsFast(run.events, run.outcome)
  {
    var k, e := ExecuteTrace(env, opts, files);
    FinishFailsFast(files, ExecuteSteps(env, opts, files));
  }

  /** With `--force` the user is asked nothing. */
  lemma ExecuteForcedAsksNothing(env: Env, opts: Options, files: map<string, string>)
    requires opts.force
    ensures NoQuestions(Execute(env, opts, files).events)
  {
    var k, e := ExecuteTrace(env, opts, files);
  }

  /**
   The files change only by one recorded, validated rewrite of the first
   podspec found in the working path, from the version read from it.
   */
  lemma ExecuteRewritesOnlyThePodspec(env: Env, opts: Options, files: map<string, string>)
    ensures var run := Execute(env, opts, files);
            || (run.files == files && NoRewrites(run.events))
            || exists k, e :: && RewroteAt(run.events, k, e, files, run.files, opts.force)
                              && FirstMatch(env.glob(PodspecPattern(WorkingPath(env, opts)))) == Some(e.path)
  {
    var k, e := ExecuteTrace(env, opts, files);
  }

  /**
   A run that fails for any reason but a failing command fails before the
   rewrite: it changed no file and recorded no rewrite.
   */
  lemma ExecuteFailsCleanly(env: Env, opts: Options, files: map<string, string>)
    ensures var run := Execute(env, opts, files);
            run.outcome.Failed? && !run.outcome.error.CommandFailed? ==> run.files == files && NoRewrites(run.events)
  {
    var k, e := ExecuteTrace(env, opts, files);
  }

  /**
   A run succeeds only after the podspec was rewritten and then committed,
   tagged, pushed as asked, and pushed to the pod repository last.
   */
  lemma ExecuteReleaseOrder(env: Env, opts: Options, files: map<string, string>)
    ensures var run := Execute(env, opts, files);
            run.outcome == Succeeded ==>
              exists k, e :: && RewroteAt(run.events, k, e, files, run.files, opts.force)
                             && Released(run.events[k + 1..], e.newVersion, opts.force, opts.repo)
  {
    var k, e := ExecuteTrace(env, opts, files);
  }

  /** The run fails on a missing repository exactly when `--repo` is PHP-empty, and then does nothing. */
  lemma ExecuteNeedsRepo(env: Env, opts: Options, files: map<string, string>)
    ensures var run := Execute(env, opts, files);
            && (run.outcome == Failed(MissingRepo) <==> PhpEmpty(opts.repo))
            && (PhpEmpty(opts.repo) ==> run.events == [] && run.files == files)
  {
    if !PhpEmpty(opts.repo) {
      var st := State([], files);
      CheckPlain(env, st, opts.force);
      var c := CheckForUncommittedChanges(env, st, opts.force);
      if c.Next? && c.value {
        ReleaseErrors(env, c.st, opts.force, WorkingPath(env, opts), opts.repo);
      }
    }
  }

  /**
   The run stops on uncommitted changes exactly when the diff reported
   changes, the run was not forced, `git status` succeeded and the user
   declined to commit; then only those three events happened.
   */
  lemma ExecuteDeclined(env: Env, opts: Options, files: map<string, string>)
    ensures var run := Execute(env, opts, files);
            var code := env.exitCode(0, DiffQuiet);
            var status := env.exitCode(1, Status);
            && (run.outcome == Failed(UncommittedChanges(WorkingPath(env, opts)))
                <==> !PhpEmpty(opts.repo) && code != 0 && !opts.force && status <= 0 && !env.confirm(2, CommitChanges))
            && (run.outcome.Failed? && run.outcome.error.UncommittedChanges? ==>
                  && run.events == [Ran(DiffQuiet, code), Ran(Status, status), Confirmed(CommitChanges, false)]
                  && run.files == files)
  {
    if !PhpEmpty(opts.repo) {
      var st := State([], files);
      CheckPlain(env, st, opts.force);
      var c := CheckForUncommittedChanges(env, st, opts.force);
      assert Since(st, c.st) == c.st.events;
      if c.Next? && c.value {
        ReleaseErrors(env, c.st, opts.force, WorkingPath(env, opts), opts.repo);
      }
    }
  }

  /**
   With a repository and uncommitted changes, a run that is forced, or whose
   user let `git status` pass and said yes, begins by committing them: the
   diff, then (unforced) the status, then `git add .` and `git commit` with
   the default message when forced and else with the message the user typed.
   A run whose commands stop short of that failed on one of them.
   */
  lemma ExecuteCommitsChanges(env: Env, opts: Options, files: map<string, string>)
    requires !PhpEmpty(opts.repo) && env.exitCode(0, DiffQuiet) != 0
    requires opts.force || (env.exitCode(1, Status) <= 0 && env.confirm(2, CommitChanges))
    ensures var run := Execute(env, opts, files);
            var cs := Commands(run.events);
            var commit := [DiffQuiet] + (if opts.force then [AddAll, Commit(DefaultCommitMessage)]
                                         else [Status, AddAll, Commit(env.answer(3, CommitMessage(DefaultCommitMessage)))]);
            commit <= cs || (cs < commit && run.outcome.Failed? && run.outcome.error.CommandFailed?)
  {
    var st := State([], files);
    CheckPlain(env, st, opts.force);
    CheckCommands(env, st, opts.force);
    var c := CheckForUncommittedChanges(env, st, opts.force);
    var r := ExecuteSteps(env, opts, files);
    assert Since(st, c.st) == c.st.events;
    if c.Next? {
      var k, e := ReleaseSteps(env, c.st, opts.force, WorkingPath(env, opts), opts.repo);
      assert r == Release(env, c.st, opts.force, WorkingPath(env, opts), opts.repo);
      SinceStart(st, c.st, r.st);
      CommandsAppend(c.st.events, Since(c.st, r.st));
    } else {
      assert r.st == c.st;
    }
  }

  /** With a repository given, the first thing the run does is the diff. */
  lemma ExecuteStartsWithDiff(env: Env, opts: Options, files: map<string, string>)
    requires !PhpEmpty(opts.repo)
    ensures var run := Execute(env, opts, files);
            |run.events| > 0 && run.events[0] == Ran(DiffQuiet, env.exitCode(0, DiffQuiet))
  {
    var st := State([], files);
    CheckPlain(env, st, opts.force);
    var c := CheckForUncommittedChanges(env, st, opts.force);
    assert Since(st, c.st) == c.st.events;
    var r := ExecuteSteps(env, opts, files);
    if c.Next? && c.value {
      var k, e := ReleaseSteps(env, c.st, opts.force, WorkingPath(env, opts), opts.repo);
      assert r == Release(env, c.st, opts.force, WorkingPath(env, opts), opts.repo);
      assert c.st.events <= r.st.events;
    }
  }

  /** The events of a forced commit, tag and push of `version` in which every command succeeds. */
  function ForcedPushEvents(version: string): seq<Event> {
    [Ran(AddAll, 0), Ran(Commit(CommitMessageFor(version)), 0), Ran(Tag(version), 0), Ran(Push, 0), Ran(PushTags, 0)]
  }

  /**
   A forced run on a clean tree where every command succeeds: one rewrite of
   the first podspec to the bumped version, then commit, tag, push and the
   pod repository push, in that order.
   */
  lemma ForcedCleanRelease(env: Env, opts: Options, files: map<string, string>, spec: string, rest: seq<string>, content: string)
    requires opts.force && !PhpEmpty(opts.repo)
    requires forall n: nat, c: Cmd :: env.exitCode(n, c) == 0
    requires env.glob(PodspecPattern(WorkingPath(env, opts))) == [spec] + rest
    requires spec in files
    requires ReplaceVersion(files[spec], CurrentVersion(files, spec), Increment(CurrentVersion(files, spec))) == Some(content)
    ensures var current := CurrentVersion(files, spec);
            var next := Increment(current);
            Execute(env, opts, files)
            == Run([Ran(DiffQuiet, 0)] + [Rewrote(spec, current, next)] + ForcedPushEvents(next) + [Ran(PodRepoPush(opts.repo), 0)],
                   files[spec := content], Succeeded)
  {
    var path := WorkingPath(env, opts);
    var current := CurrentVersion(files, spec);
    var next := Increment(current);
    var st1 := CleanCheck(env, files, true);
    var st6 := ForcedRelease(env, st1, path, opts.repo, spec, rest, current, next, content);
    ExecuteAfterCheck(env, opts, files, st1, st6);
  }

  /** The events of an unforced commit, tag and push of `version`, committed with `message`, the push confirmed and every command succeeding. */
  function ConfirmedPushEvents(version: string, message: string): seq<Event> {
    [Answered(CommitMessage(CommitMessageFor(version)), message), Ran(AddAll, 0), Ran(Commit(message), 0),
     Ran(Tag(version), 0), Confirmed(PushToRemote, true), Ran(Push, 0), Ran(PushTags, 0)]
  }

  /**
   An unforced run on a clean tree where every command succeeds, the user
   confirms the proposed version and the push: the version confirmation, one
   rewrite of the first podspec to the bumped version, the commit with the
   message the user typed, the tag, the pushes and the pod repository push.
   */
  lemma ConfirmedCleanRelease(env: Env, opts: Options, files: map<string, string>, spec: string, rest: seq<string>, content: string)
    requires !opts.force && !PhpEmpty(opts.repo)
    requires forall n: nat, c: Cmd :: env.exitCode(n, c) == 0
    requires env.glob(PodspecPattern(WorkingPath(env, opts))) == [spec] + rest
    requires spec in files
    requires env.confirm(1, ConfirmVersion(Increment(CurrentVersion(files, spec)))) && env.confirm(7, PushToRemote)
    requires ReplaceVersion(files[spec], CurrentVersion(files, spec), Increment(CurrentVersion(files, spec))) == Some(content)
    ensures var current := CurrentVersion(files, spec);
            var next := Increment(current);
            var message := env.answer(3, CommitMessage(CommitMessageFor(next)));
            Execute(env, opts, files)
            == Run([Ran(DiffQuiet, 0)] + [Confirmed(ConfirmVersion(next), true), Rewrote(spec, current, next)]
                   + ConfirmedPushEvents(next, message) + [Ran(PodRepoPush(opts.repo), 0)],
                   files[spec := content], Succeeded)
  {
    var path := WorkingPath(env, opts);
    var current := CurrentVersion(files, spec);
    var next := Increment(current);
    var st1 := CleanCheck(env, files, false);
    var st6 := ConfirmedRelease(env, st1, path, opts.repo, spec, rest, current, next, content);
    ExecuteAfterCheck(env, opts, files, st1, st6);
  }

  lemma ConfirmedRelease(env: Env, st: State, path: string, repo: string, spec: string, rest: seq<string>, current: string, next: string, content: string)
    returns (st': State)
    requires forall n: nat, c: Cmd :: env.exitCode(n, c) == 0
    requires env.glob(PodspecPattern(path)) == [spec] + rest
    requires spec in st.files
    requires current == CurrentVersion(st.files, spec) && next == Increment(current)
    requires env.confirm(|st.events|, ConfirmVersion(next)) && env.confirm(|st.events| + 6, PushToRemote)
    requires ReplaceVersion(st.files[spec], current, next) == Some(content)
    ensures Release(env, st, false, path, repo) == Next(st', ())
    ensures st' == State(st.events + [Confirmed(ConfirmVersion(next), true), Rewrote(spec, current, next)]
                         + ConfirmedPushEvents(next, env.answer(|st.events| + 2, CommitMessage(CommitMessageFor(next))))
                         + [Ran(PodRepoPush(repo), 0)],
                         st.files[spec := content])
  {
    var st5 := ConfirmedModify(env, st, path, spec, rest, current, next, content);
    st' := Log(st5, Ran(PodRepoPush(repo), 0));
  }

  lemma ConfirmedModify(env: Env, st: State, path: string, spec: string, rest: seq<string>, current: string, next: string, content: string)
    returns (st': State)
    requires forall n: nat, c: Cmd :: env.exitCode(n, c) == 0
    requires env.glob(PodspecPattern(path)) == [spec] + rest
    requires spec in st.files
    requires current == CurrentVersion(st.files, spec) && next == Increment(current)
    requires env.confirm(|st.events|, ConfirmVersion(next)) && env.confirm(|st.events| + 6, PushToRemote)
    requires ReplaceVersion(st.files[spec], current, next) == Some(content)
    ensures ModifyPodfileVersion(env, st, false, path) == Next(st', ())
    ensures st' == State(st.events + [Confirmed(ConfirmVersion(next), true), Rewrote(spec, current, next)]
                         + ConfirmedPushEvents(next, env.answer(|st.events| + 2, CommitMessage(CommitMessageFor(next)))),
                         st.files[spec := content])
  {
    IncrementAccepted(current);
    var st1 := Log(st, Confirmed(ConfirmVersion(next), true));
    assert ChooseVersion(env, st, false, next) == Next(st1, next);
    var st2 := Log(st1, Rewrote(spec, current, next));
    assert st2.files == st.files;
    var st2' := State(st2.events, st.files[spec := content]);
    assert ReplaceVersionInPath(st1, current, next, spec) == Next(st2', ());
    assert st2'.events == st.events + [Confirmed(ConfirmVersion(next), true), Rewrote(spec, current, next)];
    st' := ConfirmedCommitTagAndPush(env, st2', next);
    assert ApplyVersion(env, st1, false, spec, current, next) == Next(st', ());
    assert ModifyFound(env, st, false, spec) == Next(st', ());
    assert FirstMatch(env.glob(PodspecPattern(path))) == Some(spec);
  }

  lemma ConfirmedCommitTagAndPush(env: Env, st: State, version: string) returns (st': State)
    requires forall n: nat, c: Cmd :: env.exitCode(n, c) == 0
    requires env.confirm(|st.events| + 4, PushToRemote)
    ensures CommitTagAndPush(env, st, false, version)
            == Next(st', ())
    ensures st' == State(st.events + ConfirmedPushEvents(version, env.answer(|st.events|, CommitMessage(CommitMessageFor(version)))),
                         st.files)
  {
    var message := env.answer(|st.events|, CommitMessage(CommitMessageFor(version)));
    var st1 := Log(st, Answered(CommitMessage(CommitMessageFor(version)), message));
    var st3 := Log(Log(st1, Ran(AddAll, 0)), Ran(Commit(message), 0));
    assert CommitAllFiles(env, st, false, CommitMessageFor(version)) == Next(st3, ());
    var st4 := Log(st3, Ran(Tag(version), 0));
    assert |st4.events| == |st.events| + 4;
    var st5 := Log(st4, Confirmed(PushToRemote, true));
    st' := Log(Log(st5, Ran(Push, 0)), Ran(PushTags, 0));
    assert GitPush(env, st4, false) == Next(st', ());
  }

  /** A run whose check went on and whose release succeeded ends where the release did. */
  lemma ExecuteAfterCheck(env: Env, opts: Options, files: map<string, string>, st1: State, st6: State)
    requires !PhpEmpty(opts.repo)
    requires CheckForUncommittedChanges(env, State([], files), opts.force) == Next(st1, true)
    requires Release(env, st1, opts.force, WorkingPath(env, opts), opts.repo) == Next(st6, ())
    ensures Execute(env, opts, files) == Run(st6.events, st6.files, Succeeded)
  {
  }

  lemma ForcedRelease(env: Env, st: State, path: string, repo: string, spec: string, rest: seq<string>, current: string, next: string, content: string)
    returns (st': State)
    requires forall n: nat, c: Cmd :: env.exitCode(n, c) == 0
    requires env.glob(PodspecPattern(path)) == [spec] + rest
    requires spec in st.files
    requires current == CurrentVersion(st.files, spec) && next == Increment(current)
    requires ReplaceVersion(st.files[spec], current, next) == Some(content)
    ensures Release(env, st, true, path, repo) == Next(st', ())
    ensures st' == State(st.events + [Rewrote(spec, current, next)] + ForcedPushEvents(next) + [Ran(PodRepoPush(repo), 0)],
                         st.files[spec := content])
  {
    var st5 := ForcedModify(env, st, path, spec, rest, current, next, content);
    st' := Log(st5, Ran(PodRepoPush(repo), 0));
  }

  lemma CleanCheck(env: Env, files: map<string, string>, force: bool) returns (st': State)
    requires forall n: nat, c: Cmd :: env.exitCode(n, c) == 0
    ensures CheckForUncommittedChanges(env, State([], files), force) == Next(st', true)
    ensures st' == State([Ran(DiffQuiet, 0)], files)
  {
    st' := State([Ran(DiffQuiet, 0)], files);
    assert [] + [Ran(DiffQuiet, 0)] == [Ran(DiffQuiet, 0)];
  }

  lemma ForcedModify(env: Env, st: State, path: string, spec: string, rest: seq<string>, current: string, next: string, content: string)
    returns (st': State)
    requires forall n: nat, c: Cmd :: env.exitCode(n, c) == 0
    requires env.glob(PodspecPattern(path)) == [spec] + rest
    requires spec in st.files
    requires current == CurrentVersion(st.files, spec) && next == Increment(current)
    requires ReplaceVersion(st.files[spec], current, next) == Some(content)
    ensures ModifyPodfileVersion(env, st, true, path) == Next(st', ())
    ensures st' == State(st.events + [Rewrote(spec, current, next)] + ForcedPushEvents(next), st.files[spec := content])
  {
    IncrementAccepted(current);
    var st2 := State(st.events + [Rewrote(spec, current, next)], st.files[spec := content]);
    assert ReplaceVersionInPath(st, current, next, spec) == Next(st2, ());
    st' := ForcedCommitTagAndPush(env, st2, next);
    assert ApplyVersion(env, st, true, spec, current, next) == Next(st', ());
    assert ModifyFound(env, st, true, spec) == Next(st', ());
    assert FirstMatch(env.glob(PodspecPattern(path))) == Some(spec);
  }

  lemma ForcedCommitTagAndPush(env: Env, st: State, version: string) returns (st': State)
    requires forall n: nat, c: Cmd :: env.exitCode(n, c) == 0
    ensures CommitTagAndPush(env, st, true, version) == Next(st', ())
    ensures st' == State(st.events + ForcedPushEvents(version), st.files)
  {
    var st3 := Log(Log(st, Ran(AddAll, 0)), Ran(Commit(CommitMessageFor(version)), 0));
    assert CommitAllFiles(env, st, true, CommitMessageFor(version)) == Next(st3, ());
    var st4 := Log(st3, Ran(Tag(version), 0));
    st' := Log(Log(st4, Ran(Push, 0)), Ran(PushTags, 0));
    assert GitPush(env, st4, true) == Next(st', ());
  }
}

=== FILE: Version.dfy ===
/**
 Version strings of a podspec: the validation of `checkVersionNumber` and the
 last-component bump of `incrementedVersion` (UploadPodRepoCommand.php).
 */
module Version {
  import opened Strings

  predicate IsVersionChar(c: char) {
    IsDigit(c) || c == '.'
  }

  /** Made only of digits and dots (the empty string included). */
  predicate IsVersionChars(s: string) {
    forall i :: 0 <= i < |s| ==> IsVersionChar(s[i])
  }

  /* ---------------------------------------------------------------------- */
  /* checkVersionNumber                                                     */
  /* ---------------------------------------------------------------------- */

  /** `preg_match('/[^0-9.]/', $v)`: a scan for a character that is neither digit nor dot. */
  function HasForeignChar(v: string): (r: bool)
    ensures r <==> !IsVersionChars(v)
  {
    if |v| == 0 then false
    else !IsVersionChar(v[0]) || HasForeignChar(v[1..])
  }

  /**
   `checkVersionNumber`: PHP-`empty` strings ("" and "0") are refused, then
   any string holding a character outside `[0-9.]`.
   */
  function CheckVersionNumber(v: string): (ok: bool)
    ensures ok <==> !PhpEmpty(v) && IsVersionChars(v)
  {
    if PhpEmpty(v) then false
    else if HasForeignChar(v) then false
    else true
  }

  lemma CheckVersionNumberExamples()
    ensures CheckVersionNumber("1.2.3")
    ensures !CheckVersionNumber("1.2.a")
    ensures CheckVersionNumber("...")
    ensures !CheckVersionNumber("")
    ensures !CheckVersionNumber("0")
    ensures CheckVersionNumber("00")
  {
    assert !IsVersionChar("1.2.a"[4]);
  }

  /* ---------------------------------------------------------------------- */
  /* decimal digits                                                         */
  /* ---------------------------------------------------------------------- */

  /** The start of the longest run of digits that ends `s`. */
  function DigitRunStart(s: string): (k: nat)
    ensures k <= |s| && IsDigits(s[k..])
    ensures k == 0 || !IsDigit(s[k - 1])
  {
    if |s| == 0 || !IsDigit(s[|s| - 1]) then |s|
    else
      var k := DigitRunStart(s[..|s| - 1]);
      DigitRunExtends(s, k);
      k
  }

  /** A digit appended to a string whose digit run starts at `k` extends that run. */
  lemma DigitRunExtends(s: string, k: nat)
    requires |s| > 0 && IsDigit(s[|s| - 1]) && k <= |s| - 1
    requires IsDigits(s[..|s| - 1][k..])
    requires k == 0 || !IsDigit(s[..|s| - 1][k - 1])
    ensures IsDigits(s[k..]) && (k == 0 || !IsDigit(s[k - 1]))
  {
    var t := s[..|s| - 1];
    forall j | 0 <= j < |s| - k
      ensures IsDigit(s[k..][j])
    {
      if j < |s| - 1 - k {
        assert s[k..][j] == t[k..][j];
      }
    }
    if k > 0 {
      assert s[k - 1] == t[k - 1];
    }
  }

  /**
   The capture of `/([0-9]+)$/`: the digits that end the string, or that end
   it before one final newline (where PCRE's `$` also matches); "" when there
   is no match, which PHP then reads as null, that is 0.
   */
  function TrailingNumber(v: string): (d: string)
    ensures IsDigits(d)
  {
    var body := Anchored(v);
    body[DigitRunStart(body)..]
  }

  /** The capture is the longest run of digits that ends the anchored part. */
  lemma TrailingNumberIsRun(v: string)
    ensures var d := TrailingNumber(v);
            var body := Anchored(v);
            && |d| <= |body| && body[|body| - |d|..] == d
            && (|d| == |body| || !IsDigit(body[|body| - |d| - 1]))
  {
    var body := Anchored(v);
    var k := DigitRunStart(body);
    assert |body| - |body[k..]| == k;
  }

  /** The part of `v` that PCRE's `$` anchors at the end of: all of it, or all but one final newline. */
  function Anchored(v: string): (body: string)
    ensures v == body || (v == body + "\n")
  {
    if |v| > 0 && v[|v| - 1] == '\n' then v[..|v| - 1] else v
  }

  /** The value of a decimal digit string, as PHP's numeric-string arithmetic reads it. */
  function DigitsValue(d: string): nat
    requires IsDigits(d)
  {
    if |d| == 0 then 0
    else 10 * DigitsValue(d[..|d| - 1]) + (d[|d| - 1] as int - '0' as int)
  }

  function DigitChar(n: nat): (c: char)
    requires n < 10
    ensures IsDigit(c)
  {
    ('0' as int + n) as char
  }

  /** The decimal form of `n`, as PHP prints an integer. */
  function NatToString(n: nat): (r: string)
    ensures |r| > 0 && IsDigits(r)
    ensures |r| > 1 ==> r[0] != '0'
  {
    if n < 10 then [DigitChar(n)]
    else NatToString(n / 10) + [DigitChar(n % 10)]
  }

  /** Reading back a printed number gives the number. */
  lemma {:induction false} NatToStringValue(n: nat)
    ensures DigitsValue(NatToString(n)) == n
  {
    if n >= 10 {
      var r := NatToString(n);
      assert r[..|r| - 1] == NatToString(n / 10);
      NatToStringValue(n / 10);
    }
  }

  /* ---------------------------------------------------------------------- */
  /* incrementedVersion                                                     */
  /* ---------------------------------------------------------------------- */

  /**
   `incrementedVersion`: the trailing number plus one, appended with a dot to
   everything before the last dot; with no dot `strrpos` yields false and the
   head is empty.
   */
  function Increment(v: string): (r: string)
  {
    HeadBeforeLastDot(v) + "." + Bumped(TrailingNumber(v))
  }

  /** A digit string's value plus one, printed. */
  function Bumped(d: string): (r: string)
    requires IsDigits(d)
  {
    NatToString(DigitsValue(d) + 1)
  }

  /** `substr($v, 0, strrpos($v, "."))`: PHP reads a false position as 0. */
  function HeadBeforeLastDot(v: string): (h: string)
    ensures |h| <= |v| && h == v[..|h|]
  {
    match LastIndexOf(v, '.')
    case Some(i) => v[..i]
    case None => ""
  }

  /** The head is empty when there is no dot, and otherwise ends right before the last dot. */
  lemma HeadEndsAtLastDot(v: string)
    ensures var h := HeadBeforeLastDot(v);
            && ('.' !in v ==> h == "")
            && ('.' in v ==> |h| < |v| && v[|h|] == '.' && '.' !in v[|h| + 1..])
  {
    var h := HeadBeforeLastDot(v);
    if '.' in v {
      assert LastIndexOf(v, '.').Some?;
      var tail := v[|h| + 1..];
      forall j | 0 <= j < |tail| ensures tail[j] != '.' {
        assert tail[j] == v[|h| + 1 + j];
      }
    }
  }

  /** A version ending in a dot has an empty last component, which bumps to 1. */
  lemma IncrementTrailingDot(p: string)
    ensures Increment(p + ".") == p + ".1"
  {
    var v := p + ".";
    assert v[|v| - 1] == '.';
    assert LastIndexOf(v, '.') == Some(|p|);
    assert v[..|p|] == p;
    assert Anchored(v) == v;
    assert DigitRunStart(v) == |v|;
    assert TrailingNumber(v) == "";
    BumpedExample("", 0, "1");
    assert "." + "1" == ".1";
  }

  lemma {:induction false} DigitRunAfter(p: string, c: char, d: string)
    requires !IsDigit(c) && IsDigits(d)
    ensures DigitRunStart(p + [c] + d) == |p| + 1
    decreases |d|
  {
    var s := p + [c] + d;
    if |d| > 0 {
      assert s[..|s| - 1] == p + [c] + d[..|d| - 1];
      DigitRunAfter(p, c, d[..|d| - 1]);
    }
  }

  /** For `p.d` with `d` a digit run, the bump keeps `p` and rewrites `d` as its value plus one. */
  lemma IncrementDotted(p: string, d: string)
    requires IsDigits(d) && |d| > 0
    ensures Increment(p + "." + d) == p + "." + Bumped(d)
  {
    var v := p + "." + d;
    assert v[|v| - 1] == d[|d| - 1];
    DigitRunAfter(p, '.', d);
    assert v[|p| + 1..] == d;
    assert TrailingNumber(v) == d;
    assert v[|p|] == '.';
    assert LastIndexOf(v, '.') == Some(|p|);
    assert v[..|p|] == p;
    assert HeadBeforeLastDot(v) == p;
  }

  /** The prefix up to the last dot is untouched and the last component grows by exactly one. */
  lemma IncrementBumpsLastComponent(p: string, d: string)
    requires IsDigits(d) && |d| > 0
    ensures var r := Increment(p + "." + d);
            && |r| > |p| + 1
            && r[..|p| + 1] == p + "."
            && IsDigits(r[|p| + 1..])
            && DigitsValue(r[|p| + 1..]) == DigitsValue(d) + 1
  {
    IncrementDotted(p, d);
    var r := Increment(p + "." + d);
    assert r[|p| + 1..] == Bumped(d);
    assert r[..|p| + 1] == p + ".";
    NatToStringValue(DigitsValue(d) + 1);
  }

  /** Without a dot the whole string is the number and the head is empty. */
  lemma IncrementUndotted(d: string)
    requires IsDigits(d)
    ensures Increment(d) == "." + Bumped(d)
  {
    TrailingNumberOfDigits(d);
    NoDotInDigits(d);
    assert HeadBeforeLastDot(d) + "." + Bumped(d) == "." + Bumped(d);
  }

  lemma TrailingNumberOfDigits(d: string)
    requires IsDigits(d)
    ensures TrailingNumber(d) == d
  {
    if |d| > 0 {
      assert IsDigit(d[|d| - 1]);
      DigitRunPrefixFree(d);
    }
  }

  lemma NoDotInDigits(d: string)
    requires IsDigits(d)
    ensures HeadBeforeLastDot(d) == ""
  {
    assert forall j :: 0 <= j < |d| ==> d[j] != '.';
  }

  lemma DigitRunPrefixFree(d: string)
    requires IsDigits(d)
    ensures DigitRunStart(d) == 0
    decreases |d|
  {
    if |d| > 0 {
      DigitRunPrefixFree(d[..|d| - 1]);
    }
  }

  /** The bump of any digits-and-dots string passes `checkVersionNumber`. */
  lemma IncrementAccepted(v: string)
    requires IsVersionChars(v)
    ensures CheckVersionNumber(Increment(v))
  {
    var r := Increment(v);
    var head := HeadBeforeLastDot(v);
    var tail := Bumped(TrailingNumber(v));
    assert r == head + "." + tail;
    assert r[|head|] == '.';
    assert r != "0" && r != "";
    forall i | 0 <= i < |r| ensures IsVersionChar(r[i]) {
      if i < |head| {
        assert r[i] == head[i];
      } else if i > |head| {
        assert r[i] == tail[i - |head| - 1];
      }
    }
  }

  lemma IncrementExamples()
    ensures Increment("1.2.3") == "1.2.4"
    ensures Increment("0.9") == "0.10"
    ensures Increment("1.09") == "1.10"
    ensures Increment("7") == ".8"
    ensures Increment("") == ".1"
  {
    IncrementExample123("1.2.3", "1.2.4");
    IncrementExample09("0.9", "0.10");
    IncrementExample109("1.09", "1.10");
    IncrementExample7();
    IncrementExampleEmpty();
  }

  lemma IncrementExample7()
    ensures Increment("7") == ".8"
  {
    assert DigitsValue("7") == 7 by { assert "7"[..0] == ""; }
    IncrementUndotted("7");
    BumpedExample("7", 7, "8");
  }

  lemma IncrementExampleEmpty()
    ensures Increment("") == ".1"
  {
    IncrementUndotted("");
    BumpedExample("", 0, "1");
  }

  /** `Bumped` of a digit string whose value is `n` and where `n + 1` prints as `r`. */
  lemma BumpedExample(d: string, n: nat, r: string)
    requires IsDigits(d) && DigitsValue(d) == n && NatToString(n + 1) == r
    ensures Bumped(d) == r
  {
  }

  lemma IncrementExample123(v: string, w: string)
    requires v == "1.2.3" && w == "1.2.4"
    ensures Increment(v) == w
  {
    assert DigitsValue("3") == 3 by { assert "3"[..0] == ""; }
    BumpedExample("3", 3, "4");
    IncrementDotted("1.2", "3");
    assert "1.2" + "." + "3" == "1.2.3";
    assert "1.2" + "." + "4" == "1.2.4";
  }

  lemma IncrementExample09(v: string, w: string)
    requires v == "0.9" && w == "0.10"
    ensures Increment(v) == w
  {
    assert DigitsValue("9") == 9 by { assert "9"[..0] == ""; }
    TenPrints();
    BumpedExample("9", 9, "10");
    IncrementDotted("0", "9");
    assert "0" + "." + "9" == "0.9";
    assert "0" + "." + "10" == "0.10";
  }

  lemma IncrementExample109(v: string, w: string)
    requires v == "1.09" && w == "1.10"
    ensures Increment(v) == w
  {
    LeadingZeroNine();
    TenPrints();
    BumpedExample("09", 9, "10");
    IncrementDotted("1", "09");
    assert "1" + "." + "09" == "1.09";
    assert "1" + "." + "10" == "1.10";
  }

  lemma LeadingZeroNine()
    ensures DigitsValue("09") == 9
  {
    assert "09"[..1] == "0";
    assert "0"[..0] == "";
  }

  lemma TenPrints()
    ensures NatToString(10) == "10"
  {
    assert NatToString(1) == "1";
    assert NatToString(0) == "0";
  }
}

=== FILE: Workflow.dfy ===
/**
 The vocabulary shared by the upload and upgrade commands: the external
 commands they run, the questions they put to the user, the trace of what
 happened, and the environment that answers for processes and the user.

 Every exit code and every answer comes from the environment, indexed by the
 number of events recorded so far, so the same command issued twice may fare
 differently. The podspec files are a map from path to content.
 */
module Workflow {
  import opened Strings

  /** The processes the commands start. */
  datatype Cmd =
    | DiffQuiet                        // git diff --quiet HEAD
    | Status                           // git status
    | AddAll                           // git add .
    | Commit(message: string)          // git commit -m "<message>"
    | AddAllAndCommit(message: string) // git add . && git commit -m "<message>"
    | Tag(name: string)                // git tag <name>
    | Push                             // git push
    | PushTags                         // git push --tags
    | PodRepoPush(repo: string)        // pod repo push <repo> --allow-warnings --verbose

  /**
   Whether a positive exit code of the command stops the tool: the diff's exit
   code only reports changes, and the combined add-and-commit is not checked.
   */
  predicate Checked(c: Cmd) {
    !c.DiffQuiet? && !c.AddAllAndCommit?
  }

  datatype Question =
    | CommitChanges                    // commit the uncommitted changes? (default no)
    | CommitMessage(suggested: string) // the commit message, offering a default
    | ConfirmVersion(proposed: string) // is the next version correct? (default no)
    | EnterVersion                     // the correct version, or "exit"
    | PushToRemote                     // push to the remote? (default no)

  datatype Event =
    | Ran(cmd: Cmd, exit: int)
    | Confirmed(question: Question, yes: bool)
    | Answered(question: Question, answer: string)
    | Rewrote(path: string, oldVersion: string, newVersion: string)

  /** The exceptions the commands throw. */
  datatype Error =
    | MissingRepo
    | UncommittedChanges(path: string)
    | CommandFailed(cmd: Cmd, exit: int)
    | NoPodspec(directory: string)
    | UserAborted
    | InvalidVersion(version: string)
    | PathNotFound(path: string)
    | NotReplaced(oldVersion: string, newVersion: string, path: string)

  datatype Env = Env(
    cwd: string,
    glob: string -> seq<string>,
    exitCode: (nat, Cmd) -> int,
    confirm: (nat, Question) -> bool,
    answer: (nat, Question) -> string)

  /** The command-line options `--repo`, `--path` and `--force`. */
  datatype Options = Options(repo: string, path: string, force: bool)

  datatype State = State(events: seq<Event>, files: map<string, string>)

  /** A step either goes on with a value or stops on an exception. */
  datatype Step<T> = Next(st: State, value: T) | Stop(st: State, error: Error)

  datatype Outcome = Succeeded | Failed(error: Error)

  datatype Run = Run(events: seq<Event>, files: map<string, string>, outcome: Outcome)

  /** The directory the command works in: `--path`, or the current directory when that is PHP-empty. */
  function WorkingPath(env: Env, opts: Options): string {
    if PhpEmpty(opts.path) then env.cwd else opts.path
  }

  function Log(st: State, e: Event): State {
    State(st.events + [e], st.files)
  }

  /** Runs `c` without looking at its exit code. */
  function RunCmd(env: Env, st: State, c: Cmd): State {
    Log(st, Ran(c, env.exitCode(|st.events|, c)))
  }

  /** Runs `c`; a positive exit code throws (`$return > 0`). */
  function RunChecked(env: Env, st: State, c: Cmd): (r: Step<()>) {
    var code := env.exitCode(|st.events|, c);
    var st' := Log(st, Ran(c, code));
    if code > 0 then Stop(st', CommandFailed(c, code)) else Next(st', ())
  }

  /** Runs `c1` and, once it succeeded, `c2`. */
  function RunBoth(env: Env, st: State, c1: Cmd, c2: Cmd): (r: Step<()>) {
    var r := RunChecked(env, st, c1);
    if r.Stop? then r else RunChecked(env, r.st, c2)
  }

  function Confirm(env: Env, st: State, q: Question): (State, bool) {
    var yes := env.confirm(|st.events|, q);
    (Log(st, Confirmed(q, yes)), yes)
  }

  function Ask(env: Env, st: State, q: Question): (State, string) {
    var a := env.answer(|st.events|, q);
    (Log(st, Answered(q, a)), a)
  }

  /** The message both commands' `commitAllFiles` offers when no other is given. */
  const DefaultCommitMessage: string := "Commit repo changes before creating a new pod version"

  /** The message `commitAllFiles` commits with: the given one when forced, else the user's answer. */
  function ChosenMessage(env: Env, st: State, force: bool, message: string): string {
    if force then message else env.answer(|st.events|, CommitMessage(message))
  }

  /** Replaces the value of a step that went on; a stop is passed through. */
  function Then<T>(r: Step<()>, v: T): (r': Step<T>)
    ensures r'.st == r.st && r'.Stop? == r.Stop?
    ensures r.Stop? ==> r'.error == r.error
    ensures r.Next? ==> r'.value == v
  {
    match r
    case Stop(s, e) => Stop(s, e)
    case Next(s, _) => Next(s, v)
  }

  /** Passes a stop on as a step of another value type. */
  function Pass<T, U>(r: Step<U>): (r': Step<T>)
    requires r.Stop?
    ensures r'.Stop? && r'.st == r.st && r'.error == r.error
  {
    Stop(r.st, r.error)
  }

  /** The run as the user sees it once the tool has returned or thrown. */
  function Finish(r: Step<()>): (run: Run) {
    match r
    case Next(s, _) => Run(s.events, s.files, Succeeded)
    case Stop(s, e) => Run(s.events, s.files, Failed(e))
  }

  /* ---------------------------------------------------------------------- */
  /* properties of traces                                                   */
  /* ---------------------------------------------------------------------- */

  predicate FailedRun(e: Event) {
    e.Ran? && Checked(e.cmd) && e.exit > 0
  }

  predicate Sound(e: Event) {
    !FailedRun(e)
  }

  predicate IsQuestion(e: Event) {
    e.Confirmed? || e.Answered?
  }

  /** No command in the trace failed. */
  predicate AllSound(es: seq<Event>) {
    forall i :: 0 <= i < |es| ==> Sound(es[i])
  }

  /** The trace holds no question to the user. */
  predicate NoQuestions(es: seq<Event>) {
    forall i :: 0 <= i < |es| ==> !IsQuestion(es[i])
  }

  /** The trace holds no rewrite of a podspec. */
  predicate NoRewrites(es: seq<Event>) {
    forall i :: 0 <= i < |es| ==> !es[i].Rewrote?
  }

  lemma TraceAppend(a: seq<Event>, b: seq<Event>)
    ensures AllSound(a + b) <==> AllSound(a) && AllSound(b)
    ensures NoQuestions(a + b) <==> NoQuestions(a) && NoQuestions(b)
    ensures NoRewrites(a + b) <==> NoRewrites(a) && NoRewrites(b)
  {
    assert forall i :: 0 <= i < |a| ==> (a + b)[i] == a[i];
    assert forall i :: 0 <= i < |b| ==> (a + b)[|a| + i] == b[i];
  }

  lemma SliceAppend<T>(a: seq<T>, b: seq<T>, k: int)
    requires 0 <= k < |a|
    ensures (a + b)[..k] == a[..k] && (a + b)[k] == a[k] && (a + b)[k + 1..] == a[k + 1..] + b
  {
  }

  /** Position `k` of `b` is position `j`, that is `|a| + k`, of `a + b`. */
  lemma SlicePrepend<T>(a: seq<T>, b: seq<T>, k: int, j: int)
    requires 0 <= k < |b| && j == |a| + k
    ensures (a + b)[..j] == a + b[..k] && (a + b)[j] == b[k] && (a + b)[j + 1..] == b[k + 1..]
  {
  }

  /** The commands a trace ran, in order. */
  function Commands(es: seq<Event>): (cs: seq<Cmd>)
    ensures |cs| <= |es|
  {
    if |es| == 0 then []
    else (if es[0].Ran? then [es[0].cmd] else []) + Commands(es[1..])
  }

  lemma {:induction false} CommandsAppend(a: seq<Event>, b: seq<Event>)
    ensures Commands(a + b) == Commands(a) + Commands(b)
  {
    if |a| == 0 {
      assert a + b == b;
    } else {
      assert (a + b)[0] == a[0];
      assert (a + b)[1..] == a[1..] + b;
      CommandsAppend(a[1..], b);
    }
  }

  /**
   Fail-fast: no failing checked command is followed by anything, and a run
   stops on a failing command exactly when the failure is its last event.
   */
  predicate FailsFast(events: seq<Event>, outcome: Outcome) {
    if outcome.Failed? && outcome.error.CommandFailed? then
      && |events| > 0
      && events[|events| - 1] == Ran(outcome.error.cmd, outcome.error.exit)
      && FailedRun(events[|events| - 1])
      && AllSound(events[..|events| - 1])
    else AllSound(events)
  }

  predicate Extends(st: State, st': State) {
    st.events <= st'.events
  }

  function Since(st: State, st': State): seq<Event>
    requires Extends(st, st')
  {
    st'.events[|st.events|..]
  }

  /** A step only appends to the trace, and what it appends fails fast. */
  predicate Keeps<T>(st: State, r: Step<T>) {
    && Extends(st, r.st)
    && FailsFast(Since(st, r.st), if r.Next? then Succeeded else Failed(r.error))
  }

  /**
   A step that appends to the trace, fails fast, asks nothing when forced,
   rewrites no file and leaves the files alone.
   */
  predicate Plain<T>(st: State, r: Step<T>, force: bool) {
    && Keeps(st, r)
    && (force ==> NoQuestions(Since(st, r.st)))
    && NoRewrites(Since(st, r.st))
    && r.st.files == st.files
  }

  lemma SinceChain(st: State, mid: State, st': State)
    requires Extends(st, mid) && Extends(mid, st')
    ensures Extends(st, st')
    ensures Since(st, st') == Since(st, mid) + Since(mid, st')
  {
  }

  /** From an empty trace, what happened since is the whole trace. */
  lemma SinceStart(st: State, mid: State, st': State)
    requires st.events == [] && Extends(st, mid) && Extends(mid, st')
    ensures Since(st, st') == st'.events == Since(st, mid) + Since(mid, st')
  {
    SinceChain(st, mid, st');
  }

  /** A healthy prefix may be put in front of a step that fails fast. */
  lemma KeepsChain<T>(st: State, mid: State, r: Step<T>)
    requires Extends(st, mid) && AllSound(Since(st, mid))
    requires Keeps(mid, r)
    ensures Keeps(st, r)
    ensures Since(st, r.st) == Since(st, mid) + Since(mid, r.st)
  {
    SinceChain(st, mid, r.st);
    var a := Since(st, mid);
    var b := Since(mid, r.st);
    TraceAppend(a, b);
    if r.Stop? && r.error.CommandFailed? {
      assert (a + b)[..|a + b| - 1] == a + b[..|b| - 1];
      TraceAppend(a, b[..|b| - 1]);
    }
  }

  /** A healthy, quiet, file-preserving prefix may be put in front of a step. */
  lemma PlainChain<T>(st: State, mid: State, r: Step<T>, force: bool)
    requires Extends(st, mid) && AllSound(Since(st, mid)) && NoRewrites(Since(st, mid))
    requires force ==> NoQuestions(Since(st, mid))
    requires mid.files == st.files
    requires Plain(mid, r, force)
    ensures Plain(st, r, force)
    ensures Since(st, r.st) == Since(st, mid) + Since(mid, r.st)
  {
    KeepsChain(st, mid, r);
    var a := Since(st, mid);
    var b := Since(mid, r.st);
    TraceAppend(a, b);
  }

  /** One rewrite event in front of a plain step: the step still fails fast and only the rewrite touches the trace's files. */
  lemma RewriteChain<T>(st: State, mid: State, r: Step<T>, force: bool)
    requires Extends(st, mid) && |Since(st, mid)| == 1 && Since(st, mid)[0].Rewrote?
    requires Plain(mid, r, force)
    ensures Keeps(st, r)
    ensures Since(st, r.st) == Since(st, mid) + Since(mid, r.st)
    ensures force ==> NoQuestions(Since(st, r.st))
    ensures Since(st, r.st)[1..] == Since(mid, r.st)
    ensures r.st.files == mid.files
  {
    KeepsChain(st, mid, r);
    TraceAppend(Since(st, mid), Since(mid, r.st));
  }

  lemma ThenPlain<T>(st: State, r: Step<()>, v: T, force: bool)
    requires Plain(st, r, force)
    ensures Plain(st, Then(r, v), force)
  {
  }

  lemma PassPlain<T, U>(st: State, r: Step<U>, force: bool)
    requires r.Stop? && Plain(st, r, force)
    ensures Plain(st, Pass<T, U>(r), force)
  {
  }

  /** Events that are all questions keep a step plain when the step is not forced. */
  lemma QuestionsChain<T>(st: State, mid: State, r: Step<T>)
    requires Extends(st, mid) && mid.files == st.files
    requires forall i :: 0 <= i < |Since(st, mid)| ==> IsQuestion(Since(st, mid)[i])
    requires Plain(mid, r, false)
    ensures Plain(st, r, false)
    ensures Since(st, r.st) == Since(st, mid) + Since(mid, r.st)
  {
    PlainChain(st, mid, r, false);
  }

  lemma RunCheckedPlain(env: Env, st: State, c: Cmd, force: bool)
    requires Checked(c)
    ensures Plain(st, RunChecked(env, st, c), force)
    ensures Since(st, RunChecked(env, st, c).st) == [Ran(c, env.exitCode(|st.events|, c))]
    ensures RunChecked(env, st, c).Next? <==> env.exitCode(|st.events|, c) <= 0
  {
    var r := RunChecked(env, st, c);
    assert Since(st, r.st) == [Ran(c, env.exitCode(|st.events|, c))];
    assert Since(st, r.st)[..0] == [];
  }

  lemma PrefixPrepend<T>(x: seq<T>, a: seq<T>, b: seq<T>)
    requires a <= b
    ensures x + a <= x + b
  {
    assert (x + b)[..|x + a|] == x + b[..|a|];
  }

  lemma CommandsOfQuestion(e: Event)
    requires IsQuestion(e)
    ensures Commands([e]) == []
  {
    assert [e][1..] == [];
  }

  lemma CommandsOfRun(c: Cmd, code: int)
    ensures Commands([Ran(c, code)]) == [c]
  {
    assert [Ran(c, code)][1..] == [];
  }

  /**
   Two checked commands: plain and asking nothing, the commands run are a
   prefix of the two, both run when the step goes on, and only a failing
   command stops it.
   */
  lemma RunBothPlain(env: Env, st: State, c1: Cmd, c2: Cmd, force: bool)
    requires Checked(c1) && Checked(c2)
    ensures var r := RunBoth(env, st, c1, c2);
            && Plain(st, r, force)
            && NoQuestions(Since(st, r.st))
            && Commands(Since(st, r.st)) <= [c1, c2]
            && (r.Next? ==> Commands(Since(st, r.st)) == [c1, c2])
            && (r.Stop? ==> r.error.CommandFailed?)
  {
    RunCheckedPlain(env, st, c1, force);
    var r1 := RunChecked(env, st, c1);
    CommandsOfRun(c1, env.exitCode(|st.events|, c1));
    if r1.Next? {
      RunCheckedPlain(env, r1.st, c2, force);
      var r2 := RunChecked(env, r1.st, c2);
      PlainChain(st, r1.st, r2, force);
      CommandsOfRun(c2, env.exitCode(|r1.st.events|, c2));
      CommandsAppend(Since(st, r1.st), Since(r1.st, r2.st));
    }
  }

  /** One question in front of an unforced plain step keeps it plain and adds no command. */
  lemma AfterQuestion<T>(st: State, q: Event, r: Step<T>)
    requires IsQuestion(q) && Plain(Log(st, q), r, false)
    ensures Plain(st, r, false)
    ensures Commands(Since(st, r.st)) == Commands(Since(Log(st, q), r.st))
  {
    var mid := Log(st, q);
    assert Since(st, mid) == [q];
    PlainChain(st, mid, r, false);
    CommandsOfQuestion(q);
    CommandsAppend([q], Since(mid, r.st));
  }

  /** The trace of a whole run from an empty trace, read off its last step. */
  lemma FinishFailsFast(files: map<string, string>, r: Step<()>)
    requires Keeps(State([], files), r)
    ensures FailsFast(Finish(r).events, Finish(r).outcome)
    ensures Finish(r).events == r.st.events && Finish(r).files == r.st.files
    ensures Finish(r).outcome == Succeeded <==> r.Next?
  {
    assert Since(State([], files), r.st) == r.st.events;
  }
}
